=== FILE: README.md ===
# gnomex: a Dafny model of the catalog client

gnomex is a command-line client for the GNOME Shell extensions site. It
finds the version of the running GNOME Shell, queries the site's search
service page by page, merges every returned extension into an index keyed
by UUID, and then searches, installs or describes an extension. To install,
it builds the download URL for the build matching the shell version,
downloads the archive while counting bytes, and runs `gnome-extensions`.

This project models that core in Dafny and proves properties of it. It
covers the current revision (`gnomex.go`) and the earlier one (`gomex.go`).

- `wrappers.dfy`: `Option` and `Result`.
- `gostrings.dfy`: the Go library string functions the core depends on.
  - `strings.Replace` with count 1, which replaces the first occurrence.
  - `strings.Split` on one character, and the join it inverts.
  - `strings.TrimSpace`, using the white space set of `unicode.IsSpace`.
  - `strconv.Itoa`, with a reading-back function so the round trip can be stated.
- `shellversion.dfy`: turning the text `gnome-shell --version` prints into the `major.minor` key.
- `extensions.dfy`: the `Extension` and `SearchResult` records and the UUID-keyed index.
- `catalog.dfy`: the paged fetch.
  - Requests go out for pages 1, 2, …; every page's extensions are stored under their UUID, and a later entry replaces an earlier one.
  - The loop stops when a page's `numpages` equals its page number.
  - The search service is a function from request to answer.
  - A fuel bound stands in for a fetch that never ends (`None`).
- `acquisition.dfy`: the download URL and the `writeCount` byte counter.
- `commands.dfy`: the `search`, `install` and `about` commands, and the earlier revision's `install`/`download` gate.
  - Each external step is an input saying whether it succeeded.
  - The outside-world effects are recorded in order.
  - A failing step ends the process with status 1, as `os.Exit` does; it does not run deferred calls.
  - Each command takes the stop test its fetch uses, and install also takes when it removes the temporary file. The program as written is the instance with the `ExactMatch` stop test and `Deferred` removal. The corrected one (see "## Findings") uses `ReachedOrPast` and `BeforeEveryExit`. The lookup, outcome and download lemmas hold for every instance; the leak and cleanup lemmas name the instance they are about.

Strings are sequences of Unicode code points, and the byte-level UTF-8 view is not modelled. Every proof is checked by Dafny's verifier; nothing was executed.

## Model

| member | source | states |
|---|---|---|
| GoStrings.ReplaceFirstSpec | gnomex.go:77 | the result splices the replacement in place of the first occurrence of the pattern, and is the input unchanged when the pattern does not occur |
| GoStrings.IndexFrom | gnomex.go:77 | a found position is an occurrence at or after the start with none before it; no position means no occurrence from the start on |
| GoStrings.ReplaceFirstSkip | gnomex.go:270-273 | when no occurrence starts inside a leading part, replacing in the whole text replaces only in the rest |
| GoStrings.ReplaceFirstInPrefix | gnomex.go:271 | when the first occurrence lies inside a leading part, the rest of the text is left as it was |
| GoStrings.Split | gnomex.go:78 | one more piece than there are separators, no piece holds the separator, and joining the pieces gives the text back |
| GoStrings.SplitJoin | gnomex.go:78 | splitting the join of separator-free pieces gives the pieces back |
| GoStrings.CountCharZero | gnomex.go:78 | a character is counted zero times exactly when it does not occur |
| GoStrings.TrimSpaceEdges | gnomex.go:79 | the trimmed text neither starts nor ends with white space |
| GoStrings.TrimSpaceSpec | gnomex.go:79 | the trimmed text occurs in the input right after the leading white space, with only white space after it |
| GoStrings.TrimSpaceLeadingSpace | gnomex.go:79 | leading white space never changes the trimmed result, whatever follows it, including nothing or only white space |
| GoStrings.TrimSpaceNoEdges | gnomex.go:79 | text without white space at its ends is left as it is |
| GoStrings.Itoa | gnomex.go:272 | a non-empty decimal numeral with a minus sign exactly for negative numbers and no leading zero, as `strconv.Itoa` writes it |
| GoStrings.ItoaRoundTrip | gnomex.go:272 | reading the decimal numeral back gives the number |
| GoStrings.NatToStringValue | gnomex.go:272 | the digits of a natural number denote that number |
| GoStrings.ItoaPlain | gnomex.go:272 | a numeral holds no dot and no white space at its ends |
| ShellVersion.ParseShellVersion | gnomex.go:76-79 | the probe fails (index out of range) exactly when no dot remains once "GNOME Shell" is removed; a result holds exactly one dot and no white space at its ends |
| ShellVersion.ParseRelease | gnomex.go:76-79 | "GNOME Shell M.m.p" plus a newline gives "M.m" for every release number |
| ShellVersion.ParseExample | gomex.go:66-69 | the text in the source's comment, "GNOME Shell 3.34.3", gives "3.34" |
| ShellVersion.ParseSingleComponentFails | gomex.go:66-69 | a version with no minor part makes the probe fail |
| ShellVersion.TrimSpaceKeepsDots | gnomex.go:79 | trimming never removes a dot |
| Catalog.LastWith | gnomex.go:190-192 | the entry found has the UUID and is the last one in the list that has it; there is none exactly when no entry has the UUID |
| Catalog.MergePageKeys | gnomex.go:190-192 | storing a page adds exactly its UUIDs to the index's keys and keeps every entry under its own UUID |
| Catalog.MergeAppend | gnomex.go:190-192 | storing two pages one after the other equals storing them joined |
| Catalog.MergeLastWriteWins | gnomex.go:190-192 | after storing, a UUID maps to its last entry on the page, or keeps its earlier entry when the page does not list it |
| Catalog.FetchLoopDiverges | gnomex.go:150-197 | the loop runs out of fuel exactly when no page in the range satisfies the stop test |
| Catalog.FetchLoopStopsFirst | gnomex.go:194-196 | the loop ends at the first page that satisfies the stop test |
| Catalog.FetchDb | gnomex.go:148-198 | the fetch ends exactly when some page satisfies the stop test; it asks for pages 1 to n in order, n is the first stopping page, and the index holds the pages' extensions merged in order |
| Catalog.FetchDbPagesAscending | gnomex.go:149-163 | the pages requested start at 1 and go up by one, so they strictly increase and never include 0, all with the same query and shell version |
| Catalog.FetchDbLoop | gomex.go:137-187 | the loop as a program: the requests are pages 1 to n for the first stopping page n, and the index is the merge of what they returned |
| Catalog.StoreAll | gomex.go:179-181 | storing a page entry by entry gives the merged index |
| Catalog.FetchDbLastWriteWins | gnomex.go:190-192 | after the fetch, a UUID maps to its last entry across all fetched pages |
| Catalog.FirstStopUnique | gnomex.go:194-196 | at most one page is the first stopping page |
| Catalog.ExactMatchConstantPages | gnomex.go:194-196 | with a page count n of at least 1, exactly n requests are made, and the index is the merge of those pages |
| Catalog.ExactMatchNeverStopsBelowOne | gnomex.go:194-196 | with a page count of zero or less, the loop never stops |
| Catalog.ReachedOrPastConstantPages | gnomex.go:194-196 | with the corrected test and a page count n, exactly max(n, 1) requests are made |
| Catalog.TwoPageSearch | gnomex.go:148-198 | a two-page answer takes two requests and indexes all four extensions |
| Acquisition.UuidStep | gnomex.go:270 | the template's "UUID" placeholder is the first one, so the UUID goes exactly there |
| Acquisition.AtStep | gnomex.go:271 | the '@' removed is the first one of the UUID; the rest of the URL keeps its text |
| Acquisition.VersionStep | gnomex.go:273 | the "VERSION" placeholder is replaced unless the UUID spells "VERSION" itself |
| Acquisition.DownloadUrlShape | gnomex.go:270-273 | the URL is the prefix, the UUID without its first '@', ".v", the build number and ".shell-extension.zip" |
| Acquisition.DownloadUrlOneAt | gnomex.go:270-273 | a UUID of the form a@b is written as ab in the URL |
| Acquisition.DownloadUrlMissingBuild | gnomex.go:272 | a shell version missing from the extension's map asks for build 0 |
| Acquisition.DownloadUrlExample | gnomex.go:270-273 | "foo@bar.com" with build 12 downloads from .../extension-data/foobar.com.v12.shell-extension.zip |
| Acquisition.SumLengthsSnoc | gnomex.go:258 | adding a chunk adds its length to the total |
| Acquisition.FlattenLength | gnomex.go:257-258 | the bytes of all chunks number the sum of the chunks' lengths |
| Acquisition.CopyCounting | gnomex.go:254-263 | the bytes saved are the body in order; the counter ends at their number; the running totals are the prefix lengths and never decrease |
| Commands.Install | gnomex.go:220-252 | nothing happens for an unknown UUID and the command returns; otherwise the effects are a prefix of download, install the archive, enable, remove the file, in that order, and include the step that failed; the outcome names the first step that failed; the command returns exactly when it ends not found or installed, and otherwise exits with status 1; the temporary file is removed only on full success |
| Commands.InstallDownloadsStoredEntry | gnomex.go:229-230 | the download is for the entry stored under the UUID and the running shell version |
| Commands.InstallLeaksTempFileOnFailure | gnomex.go:233-247 | when installing or enabling fails, the process exits with the downloaded file left behind |
| Commands.InstallWithCleanup | gnomex.go:233-247 | the corrected install removes the temporary file exactly when one was created, as its last step, and exits only with status 1 |
| Commands.CleanupKeepsSteps | gnomex.go:233-247 | the corrected install has the same outcome, exit and external steps as the written one |
| Commands.InstallWith | gnomex.go:220-252 | with either removal, the outcome and the exit are those of the install as written, and the effects are its effects, possibly followed by the removal; an unknown UUID has no effects; failures exit with status 1; the first step downloads the stored entry |
| Commands.InstallCommand | gnomex.go:220-252 | for any stop test and removal, including the `ExactMatch`/`Deferred` instance the program is: the install starts exactly when the fetch ends; it reports an unknown UUID exactly when no fetched page lists the UUID, and then has no effects and returns; it installs exactly when a page lists it and every step succeeds; it returns exactly when it ends not found or installed, and otherwise exits with status 1 |
| Commands.InstallCommandUsesLastEntry | gnomex.go:220-232 | for any stop test and removal, the URL downloaded is built from the last entry with the UUID across the fetched pages |
| Commands.InstallCommandLeaksOnFailure | gnomex.go:220-247 | the command as written, once a fetched page lists the UUID and the download succeeded, exits with status 1 and leaves the file behind when installing or enabling fails |
| Commands.InstallCommandCleansUp | gnomex.go:220-247 | the corrected command removes the temporary file exactly when a fetched page lists the UUID and the download succeeded |
| Commands.InstallCommandWithoutPages | gnomex.go:194-196 | when every answer reports no pages, the install as written never gets past its fetch for any fuel, and the corrected fetch stops after one request |
| Commands.AboutCommandReportsLastEntry | gnomex.go:322-333 | for any stop test, about fails with status 1 exactly when no fetched page lists the UUID; otherwise it reports the last such entry's name, creator, site address joined with its link, and description |
| Commands.SearchListsGathered | gnomex.go:207-212 | for any stop test, every extension listed came from a fetched page, and each UUID on those pages is listed once, with its last entry |
| Commands.SearchListsLastEntries | gnomex.go:207-212 | the listing is exactly the set of fetched entries that are the last ones with their UUID |
| Commands.EarlierFindsLastEntry | gomex.go:205-224 | for any stop test, the earlier install and download find the last entry with the UUID across the fetched pages, and nothing when no page lists it |
| Commands.EarlierAgreesWithInstall | gomex.go:205-213 | for the same stop test, the earlier and current install find exactly the same UUIDs |

## Left out

- HTTP requests, JSON decoding, the two-second client timeout and request headers are left out. The search service is a function from request to answer, and a transport or decoding error would end the process with status 1 before the index changes.
- Running `gnome-shell --version`, `gnome-extensions install` and `gnome-extensions enable` is left out. Their output, or whether they succeeded, is an input.
- The temporary file's name, `io.Copy` over the response body and the closing of handles are left out. The body is given as the chunks it is read in.
- A failed copy after the temporary file exists is not modelled separately: `Env.downloadOk` covers the whole download.
- The megabyte progress display (`float32` division and `Printf`), the coloured short information and the help text are left out, because they only print.
- Argument checking (`run`, `checkArgs`) and the stub commands `list`, `uninstall`, `upgrade` and `upgradeAll` are left out: they hold no logic beyond printing.
- `gomex_test.go` is not part of this model.
- Acquisition.Write: the counter is an unbounded integer; the 64-bit wrap of Go's `int` needs a body larger than 2^63 bytes.
- Strings are code point sequences, so `strings.Split`, `Replace` and `TrimSpace` are modelled on code points rather than UTF-8 bytes. For the ASCII patterns used here the results agree.
- Catalog.FetchDb: the fetch is bounded by a fuel count, and `None` stands for "still requesting". A fetch that never stops is one that is `None` for every fuel, which `ExactMatchNeverStopsBelowOne` states.
- Catalog.FetchDbLoop: needs a page where the fetch stops as a ghost argument, since a loop that never stops cannot return.
- Acquisition.DownloadUrlShape: requires that the UUID, with its '@' removed, does not contain "VERSION". When it does, the source replaces that text instead of the placeholder.
- Where the program's evident intent and its code differ, the commands model the code. The corrected behaviour is modelled beside it, as an instance of the same commands:
  - The loop stops only when `Numpages == page`, not once the page number reaches or passes the count.
  - The temporary file is not removed when the process exits on an error.
- Acquisition.BuildFor: a shell version missing from an extension's map asks for build 0, Go's zero value, as the code does. A lookup that fails instead is not modelled.

## Findings

| source | as written | input that shows it | evidently intended | confidence | as-written member | corrected member |
|---|---|---|---|---|---|---|
| gnomex.go:194-196 | the fetch stops only when `Numpages == page`, with pages numbered from 1 | a search whose answer reports `numpages: 0` (no results) is requested again for page 2, 3, … without end | stop once the page number reaches or passes the count (`page >= Numpages`) | not executed | Catalog.ExactMatchNeverStopsBelowOne | Catalog.ReachedOrPastConstantPages |
| gnomex.go:233-247 | `defer os.Remove(fileName)` is followed by `os.Exit(1)` on failure, and `os.Exit` skips deferred calls | a downloaded archive that `gnome-extensions install` rejects stays in the temporary directory | remove the temporary file on every path after the download | not executed | Commands.InstallLeaksTempFileOnFailure | Commands.InstallWithCleanup |

Each corrected definition is one instance of the commands in `commands.dfy`: the fetch with the `ReachedOrPast` stop test, and the install with `BeforeEveryExit` removal. The instance with `ExactMatch` and `Deferred` is the program as written.

=== FILE: acquisition.dfy ===
/** The acquisition engine: the download URL of an extension's build for
    the running shell, and the byte counter that tracks the download. The
    HTTP request, the temporary file and the progress printing are left
    out; the response body is given as the chunks it is read in. */
module Acquisition {
  import opened Wrappers
  import opened GoStrings
  import opened Extensions

  /** The URL template: "UUID" and "VERSION" are the placeholders. */
  const DownloadUrlFormat := "https://extensions.gnome.org/extension-data/UUID.vVERSION.shell-extension.zip"

  /** The template's text before the "UUID" placeholder. */
  const UrlPrefix := "https://extensions.gnome.org/extension-data/"

  /** The template's text after the "VERSION" placeholder. */
  const UrlSuffix := ".shell-extension.zip"

  /** `extn.ShellVersion[shell]`: the build for the shell version, or Go's
      zero value (primary key 0, version 0) when the map has no such key. */
  function BuildFor(ext: Extension, shell: string): VersionBuild {
    if shell in ext.shellVersion then ext.shellVersion[shell] else VersionBuild(0, 0)
  }

  /** The source's URL construction: put the UUID in place of the first
      "UUID", drop the first '@' of the result, and put the decimal build
      number in place of the first "VERSION". */
  function DownloadUrl(ext: Extension, shell: string): string {
    var withUuid := ReplaceFirst(DownloadUrlFormat, "UUID", ext.uuid);
    var withoutAt := ReplaceFirst(withUuid, "@", "");
    ReplaceFirst(withoutAt, "VERSION", Itoa(BuildFor(ext, shell).version))
  }

  /** The UUID as it appears in the URL: its first '@' removed. */
  function UrlUuid(uuid: string): string {
    ReplaceFirst(uuid, "@", "")
  }

  /** A pattern whose first character does not occur in `s` does not occur in `s`. */
  lemma AbsentByFirstChar(s: string, pat: string)
    requires |pat| > 0 && pat[0] !in s
    ensures Absent(s, pat)
  {
    assert s[..|s|] == s;
    NoMatchWithoutFirstChar(s, pat, |s|);
  }

  /** Replacing a pattern that starts the text. */
  lemma ReplaceAtFront(pat: string, rest: string, repl: string)
    ensures ReplaceFirst(pat + rest, pat, repl) == repl + rest
  {
    var s := pat + rest;
    assert s[..|pat|] == pat;
    FirstIndexSome(s, pat, 0);
    ReplaceAtIndex(s, pat, repl, 0);
    assert s[|pat|..] == rest;
  }

  /** Removing the first '@' from a UUID followed by '@'-free text touches only the UUID. */
  lemma RemoveAtInPrefix(uuid: string, t: string)
    requires '@' !in t
    ensures ReplaceFirst(uuid + t, "@", "") == UrlUuid(uuid) + t
  {
    match FirstIndex(uuid, "@")
    case Some(i) =>
      ReplaceFirstInPrefix(uuid, t, "@", "", i);
    case None =>
      forall j: nat | j < |uuid| ensures !OccursAt(uuid + t, "@", j) {
        OccursPrefix(uuid, t, "@", j);
      }
      ReplaceFirstSkip(uuid, t, "@", "");
      AbsentByFirstChar(t, "@");
  }

  /** Text with a single '@' loses exactly that character. */
  lemma UrlUuidOneAt(a: string, b: string)
    requires '@' !in a
    ensures UrlUuid(a + "@" + b) == a + b
  {
    assert a + "@" + b == a + ("@" + b);
    assert (a + ("@" + b))[..|a|] == a;
    NoMatchWithoutFirstChar(a + ("@" + b), "@", |a|);
    ReplaceFirstSkip(a, "@" + b, "@", "");
    ReplaceAtFront("@", b, "");
  }

  /** The template is the prefix, "UUID", ".v", "VERSION" and the suffix. */
  lemma TemplateParts()
    ensures DownloadUrlFormat == UrlPrefix + ("UUID" + (".v" + ("VERSION" + UrlSuffix)))
  {
  }

  /** No 'U' or 'V' before the placeholders and no '@' in the template. */
  lemma TemplateChars()
    ensures 'U' !in UrlPrefix && 'V' !in UrlPrefix && '@' !in UrlPrefix
    ensures '@' !in ".v" + ("VERSION" + UrlSuffix)
  {
    PrefixNoU();
    PrefixNoV();
    PrefixNoAt();
    SuffixNoAt();
  }

  lemma PrefixNoU() ensures 'U' !in UrlPrefix {}
  lemma PrefixNoV() ensures 'V' !in UrlPrefix {}
  lemma PrefixNoAt() ensures '@' !in UrlPrefix {}
  lemma SuffixNoAt() ensures '@' !in ".v" + ("VERSION" + UrlSuffix) {}

  /** Step one: with no 'U' before the placeholder, the placeholder is the first "UUID". */
  lemma UuidStep(p: string, tail: string, uuid: string)
    requires 'U' !in p
    ensures ReplaceFirst(p + ("UUID" + tail), "UUID", uuid) == p + (uuid + tail)
  {
    assert (p + ("UUID" + tail))[..|p|] == p;
    NoMatchWithoutFirstChar(p + ("UUID" + tail), "UUID", |p|);
    ReplaceFirstSkip(p, "UUID" + tail, "UUID", uuid);
    ReplaceAtFront("UUID", tail, uuid);
  }

  /** Step two: with no '@' around the UUID, the first '@' is the UUID's. */
  lemma AtStep(p: string, uuid: string, tail: string)
    requires '@' !in p && '@' !in tail
    ensures ReplaceFirst(p + (uuid + tail), "@", "") == p + (UrlUuid(uuid) + tail)
  {
    assert (p + (uuid + tail))[..|p|] == p;
    NoMatchWithoutFirstChar(p + (uuid + tail), "@", |p|);
    ReplaceFirstSkip(p, uuid + tail, "@", "");
    RemoveAtInPrefix(uuid, tail);
  }

  /** Step three: with no 'V' before the UUID and no "VERSION" in it, the
      placeholder is the first "VERSION". */
  lemma VersionStep(p: string, u: string, sfx: string, ver: string)
    requires 'V' !in p
    requires Absent(u, "VERSION")
    ensures ReplaceFirst(p + (u + (".v" + ("VERSION" + sfx))), "VERSION", ver) == p + (u + (".v" + (ver + sfx)))
  {
    var tail := ".v" + ("VERSION" + sfx);
    VersionHead(p, u, tail);
    ReplaceFirstSkip(p + u, tail, "VERSION", ver);
    VersionTail(sfx, ver);
    AppendAssoc(p, u, tail);
    AppendAssoc(p, u, ".v" + (ver + sfx));
  }

  /** No "VERSION" starts inside the prefix and UUID, even straddling into the tail. */
  lemma VersionHead(p: string, u: string, tail: string)
    requires 'V' !in p
    requires Absent(u, "VERSION")
    requires |tail| > 0 && tail[0] == '.'
    ensures forall j: nat :: j < |p + u| ==> !OccursAt((p + u) + tail, "VERSION", j)
  {
    assert (p + u)[..|p|] == p;
    NoMatchWithoutFirstChar(p + u, "VERSION", |p|);
    AbsentAppend(p, u, "VERSION");
    NoStraddle(p + u, tail, "VERSION");
  }

  /** After ".v" the placeholder is the first "VERSION". */
  lemma VersionTail(sfx: string, ver: string)
    ensures ReplaceFirst(".v" + ("VERSION" + sfx), "VERSION", ver) == ".v" + (ver + sfx)
  {
    var tail := ".v" + ("VERSION" + sfx);
    assert tail[..2] == ".v";
    NoMatchWithoutFirstChar(tail, "VERSION", 2);
    ReplaceFirstSkip(".v", "VERSION" + sfx, "VERSION", ver);
    ReplaceAtFront("VERSION", sfx, ver);
  }

  /** The URL's shape: the template's prefix, the UUID with its first '@'
      removed, ".v", the decimal build number for the shell version (0 when
      the extension lists none) and the template's suffix. It holds whenever
      the UUID does not itself spell "VERSION". */
  lemma DownloadUrlShape(ext: Extension, shell: string)
    requires Absent(UrlUuid(ext.uuid), "VERSION")
    ensures DownloadUrl(ext, shell)
            == UrlPrefix + (UrlUuid(ext.uuid) + (".v" + (Itoa(BuildFor(ext, shell).version) + UrlSuffix)))
  {
    TemplateParts();
    TemplateChars();
    UuidStep(UrlPrefix, ".v" + ("VERSION" + UrlSuffix), ext.uuid);
    AtStep(UrlPrefix, ext.uuid, ".v" + ("VERSION" + UrlSuffix));
    VersionStep(UrlPrefix, UrlUuid(ext.uuid), UrlSuffix, Itoa(BuildFor(ext, shell).version));
  }

  /** A UUID with one '@' and no "VERSION" gives the URL with the '@' dropped. */
  lemma DownloadUrlOneAt(ext: Extension, shell: string, a: string, b: string)
    requires ext.uuid == a + "@" + b && '@' !in a
    requires Absent(a + b, "VERSION")
    ensures DownloadUrl(ext, shell) == UrlPrefix + ((a + b) + (".v" + (Itoa(BuildFor(ext, shell).version) + UrlSuffix)))
  {
    UrlUuidOneAt(a, b);
    DownloadUrlShape(ext, shell);
  }

  /** No build for the running shell is not an error: the URL asks for build 0. */
  lemma DownloadUrlMissingBuild(ext: Extension, shell: string)
    requires shell !in ext.shellVersion
    requires Absent(UrlUuid(ext.uuid), "VERSION")
    ensures DownloadUrl(ext, shell) == UrlPrefix + (UrlUuid(ext.uuid) + (".v" + ("0" + UrlSuffix)))
  {
    DownloadUrlShape(ext, shell);
    assert Itoa(0) == "0";
  }

  /** The UUID "foo@bar.com" with build 12 downloads from
      .../extension-data/foobar.com.v12.shell-extension.zip. */
  lemma DownloadUrlExample(ext: Extension, shell: string)
    requires ext.uuid == "foo@bar.com"
    requires shell in ext.shellVersion && ext.shellVersion[shell].version == 12
    ensures DownloadUrl(ext, shell)
            == "https://extensions.gnome.org/extension-data/foobar.com.v12.shell-extension.zip"
  {
    ExampleUuid();
    DownloadUrlOneAt(ext, shell, "foo", "bar.com");
    ItoaTwelve();
    ExampleText();
  }

  lemma ExampleUuid()
    ensures "foo@bar.com" == "foo" + "@" + "bar.com" && '@' !in "foo"
    ensures "foo" + "bar.com" == "foobar.com"
    ensures Absent("foobar.com", "VERSION")
  {
    assert 'V' !in "foobar.com";
    AbsentByFirstChar("foobar.com", "VERSION");
  }

  lemma ItoaTwelve()
    ensures Itoa(12) == "12"
  {
    assert NatToString(1) == "1";
  }

  lemma ExampleText()
    ensures UrlPrefix + ("foobar.com" + (".v" + ("12" + UrlSuffix)))
            == "https://extensions.gnome.org/extension-data/foobar.com.v12.shell-extension.zip"
  {
  }

  /** A byte of the response body. */
  newtype byte = x: int | 0 <= x < 256

  /** The download's byte counter (Go's `writeCount`, an int). */
  datatype WriteCount = WriteCount(total: int)

  /** What `Write` returns: the updated counter, the byte count and the error. */
  datatype WriteResult = WriteResult(counter: WriteCount, n: int, err: Option<string>)

  /** writeCount.Write: counts the chunk and reports it wholly written, never failing. */
  function Write(wc: WriteCount, p: seq<byte>): (r: WriteResult)
    ensures r.n == |p| && r.err == None
    ensures r.counter.total - wc.total == r.n
  {
    WriteResult(WriteCount(wc.total + |p|), |p|, None)
  }

  /** The chunks joined in order. */
  function Flatten(chunks: seq<seq<byte>>): seq<byte> {
    if |chunks| == 0 then [] else Flatten(chunks[..|chunks| - 1]) + chunks[|chunks| - 1]
  }

  /** The sum of the chunks' lengths. */
  function SumLengths(chunks: seq<seq<byte>>): nat {
    if |chunks| == 0 then 0 else |chunks[0]| + SumLengths(chunks[1..])
  }

  lemma {:induction false} SumLengthsSnoc(chunks: seq<seq<byte>>, c: seq<byte>)
    ensures SumLengths(chunks + [c]) == SumLengths(chunks) + |c|
    decreases |chunks|
  {
    if |chunks| > 0 {
      assert (chunks + [c])[1..] == chunks[1..] + [c];
      SumLengthsSnoc(chunks[1..], c);
    } else {
      assert (chunks + [c])[1..] == [];
    }
  }

  /** The joined chunks are as long as the sum of the chunks' lengths. */
  lemma {:induction false} FlattenLength(chunks: seq<seq<byte>>)
    ensures |Flatten(chunks)| == SumLengths(chunks)
    decreases |chunks|
  {
    if |chunks| > 0 {
      var init := chunks[..|chunks| - 1];
      FlattenLength(init);
      SumLengthsSnoc(init, chunks[|chunks| - 1]);
      assert init + [chunks[|chunks| - 1]] == chunks;
    }
  }

  /** One more chunk appends it to the joined prefix. */
  lemma FlattenStep(chunks: seq<seq<byte>>, i: nat)
    requires i < |chunks|
    ensures Flatten(chunks[..i + 1]) == Flatten(chunks[..i]) + chunks[i]
  {
    assert chunks[..i + 1][..i] == chunks[..i];
  }

  /** The copy of the response body through the counter (io.Copy over an
      io.TeeReader): every chunk is appended to the saved bytes and written
      to the counter. The saved bytes are the body, the counter ends at the
      sum of the chunk lengths, which is the number of bytes saved, and the
      totals shown after each chunk never decrease. */
  method CopyCounting(chunks: seq<seq<byte>>) returns (saved: seq<byte>, wc: WriteCount, totals: seq<int>)
    ensures saved == Flatten(chunks)
    ensures wc.total == SumLengths(chunks) == |saved|
    ensures |totals| == |chunks|
    ensures forall i :: 0 <= i < |totals| ==> totals[i] == |Flatten(chunks[..i + 1])|
    ensures forall i, j :: 0 <= i <= j < |totals| ==> totals[i] <= totals[j]
  {
    saved := [];
    wc := WriteCount(0);
    totals := [];
    var i := 0;
    while i < |chunks|
      invariant 0 <= i <= |chunks|
      invariant saved == Flatten(chunks[..i])
      invariant wc.total == |saved|
      invariant |totals| == i
      invariant forall k :: 0 <= k < i ==> totals[k] == |Flatten(chunks[..k + 1])|
      invariant forall k :: 0 <= k < i ==> totals[k] <= wc.total
      invariant forall k, l :: 0 <= k <= l < i ==> totals[k] <= totals[l]
    {
      var w := Write(wc, chunks[i]);
      FlattenStep(chunks, i);
      saved := saved + chunks[i];
      wc := w.counter;
      totals := totals + [wc.total];
      i := i + 1;
    }
    assert chunks[..i] == chunks;
    FlattenLength(chunks);
  }
}

=== FILE: catalog.dfy ===
/** The catalog client: merging search pages into the index by UUID, and the
    paginated fetch loop. The HTTP request, its headers and timeout, and JSON
    decoding are abstracted into a `Server`: a function from the request's
    query parameters to the decoded page. */
module Catalog {
  import opened Wrappers
  import opened Extensions

  /** The UUIDs carried by a batch of extensions. */
  function Uuids(exts: seq<Extension>): set<string> {
    set i | 0 <= i < |exts| :: exts[i].uuid
  }

  lemma UuidsCons(exts: seq<Extension>)
    requires |exts| > 0
    ensures Uuids(exts) == {exts[0].uuid} + Uuids(exts[1..])
  {
    forall u | u in Uuids(exts) ensures u in {exts[0].uuid} + Uuids(exts[1..]) {
      var i :| 0 <= i < |exts| && exts[i].uuid == u;
      if i > 0 {
        assert exts[1..][i - 1] == exts[i];
      }
    }
    forall u | u in Uuids(exts[1..]) ensures u in Uuids(exts) {
      var i :| 0 <= i < |exts[1..]| && exts[1..][i].uuid == u;
      assert exts[i + 1] == exts[1..][i];
    }
  }

  /** Reference reading of "last write wins": the entry that wins for `uuid`
      is the last one in the batch that carries it. */
  function LastWith(exts: seq<Extension>, uuid: string): (r: Option<Extension>)
    ensures r.Some? ==> r.value.uuid == uuid && r.value in exts
    ensures r.None? <==> forall i :: 0 <= i < |exts| ==> exts[i].uuid != uuid
    ensures r.Some? ==> exists i :: 0 <= i < |exts| && exts[i] == r.value
                                    && forall j :: i < j < |exts| ==> exts[j].uuid != uuid
  {
    if |exts| == 0 then None
    else if exts[|exts| - 1].uuid == uuid then Some(exts[|exts| - 1])
    else
      var r := LastWith(exts[..|exts| - 1], uuid);
      assert forall i :: 0 <= i < |exts| - 1 ==> exts[..|exts| - 1][i] == exts[i];
      r
  }

  /** Stores each extension of a page under its UUID, in page order, as the
      source's range loop does. */
  function MergePage(index: Index, exts: seq<Extension>): Index
    decreases |exts|
  {
    if |exts| == 0 then index
    else MergePage(index[exts[0].uuid := exts[0]], exts[1..])
  }

  /** Merging adds exactly the page's UUIDs to the keys, and an index whose
      entries sit under their own UUIDs stays so. */
  lemma {:induction false} MergePageKeys(index: Index, exts: seq<Extension>)
    ensures MergePage(index, exts).Keys == index.Keys + Uuids(exts)
    ensures WellKeyed(index) ==> WellKeyed(MergePage(index, exts))
    decreases |exts|
  {
    if |exts| > 0 {
      UuidsCons(exts);
      MergePageKeys(index[exts[0].uuid := exts[0]], exts[1..]);
    }
  }

  /** Merging one more extension is a single store. */
  lemma {:induction false} MergeSnoc(index: Index, exts: seq<Extension>, e: Extension)
    ensures MergePage(index, exts + [e]) == MergePage(index, exts)[e.uuid := e]
    decreases |exts|
  {
    if |exts| > 0 {
      assert (exts + [e])[1..] == exts[1..] + [e];
      MergeSnoc(index[exts[0].uuid := exts[0]], exts[1..], e);
    }
  }

  /** Merging two batches one after the other is merging their concatenation. */
  lemma {:induction false} MergeAppend(index: Index, a: seq<Extension>, b: seq<Extension>)
    ensures MergePage(index, a + b) == MergePage(MergePage(index, a), b)
    decreases |a|
  {
    if |a| == 0 {
      assert a + b == b;
    } else {
      assert (a + b)[1..] == a[1..] + b;
      MergeAppend(index[a[0].uuid := a[0]], a[1..], b);
    }
  }

  /** Last write wins: after merging, a UUID the batch carries maps to the
      batch's last entry for it, and every other key keeps its old value. */
  lemma {:induction false} MergeLastWriteWins(index: Index, exts: seq<Extension>, uuid: string)
    ensures LastWith(exts, uuid).Some? ==>
              uuid in MergePage(index, exts) && MergePage(index, exts)[uuid] == LastWith(exts, uuid).value
    ensures LastWith(exts, uuid).None? ==>
              (uuid in MergePage(index, exts) <==> uuid in index)
              && (uuid in index ==> MergePage(index, exts)[uuid] == index[uuid])
    decreases |exts|
  {
    if |exts| > 0 {
      var init, e := exts[..|exts| - 1], exts[|exts| - 1];
      assert exts == init + [e];
      MergeSnoc(index, init, e);
      MergeLastWriteWins(index, init, uuid);
    }
  }

  /** The query parameters of one search request: search text, shell
      version and page number. */
  datatype PageRequest = PageRequest(search: string, shellVersion: string, page: int)

  /** The remote search endpoint, as the page it answers to each request. */
  type Server = PageRequest -> SearchResult

  /** When the loop stops after fetching `page`: the source tests
      `Numpages == page`; `ReachedOrPast` is the `Numpages <= page` test. */
  datatype StopRule = ExactMatch | ReachedOrPast

  predicate Stops(rule: StopRule, numpages: int, page: int) {
    match rule
    case ExactMatch => numpages == page
    case ReachedOrPast => numpages <= page
  }

  /** What a fetch leaves behind: the index and the requests made, in order. */
  datatype Fetched = Fetched(index: Index, requests: seq<PageRequest>)

  /** Requests for pages 1 to n, in order. */
  function Requests(search: string, shell: string, n: nat): (rs: seq<PageRequest>)
    ensures |rs| == n
  {
    seq(n, i => PageRequest(search, shell, i + 1))
  }

  function PageOf(server: Server, search: string, shell: string, page: int): SearchResult {
    server(PageRequest(search, shell, page))
  }

  /** The extensions of pages from+1 to hi, in page order. */
  function Gathered(server: Server, search: string, shell: string, from: nat, hi: nat): seq<Extension>
    decreases hi
  {
    if hi <= from then []
    else Gathered(server, search, shell, from, hi - 1) + PageOf(server, search, shell, hi).extensions
  }

  lemma {:induction false} GatheredCons(server: Server, search: string, shell: string, from: nat, hi: nat)
    requires from < hi
    ensures Gathered(server, search, shell, from, hi)
            == PageOf(server, search, shell, from + 1).extensions + Gathered(server, search, shell, from + 1, hi)
    decreases hi
  {
    if hi > from + 1 {
      GatheredCons(server, search, shell, from, hi - 1);
    }
  }

  /** `k` is the first page, counting from 1, after which the loop stops. */
  predicate FirstStop(rule: StopRule, server: Server, search: string, shell: string, k: int) {
    && k >= 1
    && Stops(rule, PageOf(server, search, shell, k).numpages, k)
    && forall p :: 1 <= p < k ==> !Stops(rule, PageOf(server, search, shell, p).numpages, p)
  }

  /** The loop after `done` pages, with `fuel` more requests followed:
      request page done+1, merge its extensions, stop if the page's count
      says so, otherwise go on. `None` means the source is still requesting
      pages once the fuel is spent. */
  function FetchLoop(rule: StopRule, server: Server, search: string, shell: string,
                     done: nat, index: Index, fuel: nat): Option<Fetched>
    decreases fuel
  {
    if fuel == 0 then None
    else
      var page := done + 1;
      var req := PageRequest(search, shell, page);
      var res := server(req);
      var merged := MergePage(index, res.extensions);
      if Stops(rule, res.numpages, page) then Some(Fetched(merged, [req]))
      else
        match FetchLoop(rule, server, search, shell, page, merged, fuel - 1)
        case None => None
        case Some(f) => Some(Fetched(f.index, [req] + f.requests))
  }

  /** The loop runs out of fuel exactly when none of the pages it may
      request stops it. */
  lemma {:induction false} FetchLoopDiverges(rule: StopRule, server: Server, search: string, shell: string,
                                             done: nat, index: Index, fuel: nat)
    ensures FetchLoop(rule, server, search, shell, done, index, fuel).None? <==>
              forall p :: done < p <= done + fuel ==> !Stops(rule, PageOf(server, search, shell, p).numpages, p)
    decreases fuel
  {
    if fuel > 0 {
      var res := PageOf(server, search, shell, done + 1);
      FetchLoopDiverges(rule, server, search, shell, done + 1, MergePage(index, res.extensions), fuel - 1);
    }
  }

  /** When the loop returns, it has made between one and `fuel` requests,
      for pages done+1, done+2, ... in order. */
  lemma {:induction false} FetchLoopRequests(rule: StopRule, server: Server, search: string, shell: string,
                                             done: nat, index: Index, fuel: nat)
    ensures var r := FetchLoop(rule, server, search, shell, done, index, fuel);
            r.Some? ==>
              && 1 <= |r.value.requests| <= fuel
              && forall i :: 0 <= i < |r.value.requests| ==>
                   r.value.requests[i] == PageRequest(search, shell, done + 1 + i)
    decreases fuel
  {
    if fuel > 0 {
      var res := PageOf(server, search, shell, done + 1);
      FetchLoopRequests(rule, server, search, shell, done + 1, MergePage(index, res.extensions), fuel - 1);
    }
  }

  /** When the loop returns, its last page is the first one, after `done`,
      whose reported count stops it. */
  lemma {:induction false} FetchLoopStopsFirst(rule: StopRule, server: Server, search: string, shell: string,
                                               done: nat, index: Index, fuel: nat)
    ensures var r := FetchLoop(rule, server, search, shell, done, index, fuel);
            r.Some? ==>
              var last := done + |r.value.requests|;
              && Stops(rule, PageOf(server, search, shell, last).numpages, last)
              && forall p :: done < p < last ==> !Stops(rule, PageOf(server, search, shell, p).numpages, p)
    decreases fuel
  {
    if fuel > 0 {
      var res := PageOf(server, search, shell, done + 1);
      FetchLoopStopsFirst(rule, server, search, shell, done + 1, MergePage(index, res.extensions), fuel - 1);
    }
  }

  /** When the loop returns, the index is the old one with the extensions of
      every page it requested merged in page order. */
  lemma {:induction false} FetchLoopIndex(rule: StopRule, server: Server, search: string, shell: string,
                                          done: nat, index: Index, fuel: nat)
    ensures var r := FetchLoop(rule, server, search, shell, done, index, fuel);
            r.Some? ==>
              r.value.index == MergePage(index, Gathered(server, search, shell, done, done + |r.value.requests|))
    decreases fuel
  {
    var r := FetchLoop(rule, server, search, shell, done, index, fuel);
    if fuel > 0 && r.Some? {
      var page := done + 1;
      var res := PageOf(server, search, shell, page);
      var merged := MergePage(index, res.extensions);
      if Stops(rule, res.numpages, page) {
        assert Gathered(server, search, shell, done, done) == [];
        assert Gathered(server, search, shell, done, page) == res.extensions;
      } else {
        var f := FetchLoop(rule, server, search, shell, page, merged, fuel - 1).value;
        assert r.value == Fetched(f.index, [PageRequest(search, shell, page)] + f.requests);
        FetchLoopIndex(rule, server, search, shell, page, merged, fuel - 1);
        var last := page + |f.requests|;
        var rest := Gathered(server, search, shell, page, last);
        assert f.index == MergePage(merged, rest);
        GatheredCons(server, search, shell, done, last);
        MergeAppend(index, res.extensions, rest);
        assert r.value.index == MergePage(index, Gathered(server, search, shell, done, last));
      }
    }
  }

  /** fetchDb: requests pages 1, 2, 3, ... of the search for `search` on
      shell `shell`, merging each into `index`, until a page's reported
      count stops the loop (or `fuel` requests have been followed). */
  function FetchDb(rule: StopRule, server: Server, search: string, shell: string,
                   index: Index, fuel: nat): (r: Option<Fetched>)
    ensures r.None? <==> forall p :: 1 <= p <= fuel ==> !Stops(rule, PageOf(server, search, shell, p).numpages, p)
    ensures r.Some? ==>
              var n := |r.value.requests|;
              && n <= fuel
              && FirstStop(rule, server, search, shell, n)
              && r.value.requests == Requests(search, shell, n)
              && r.value.index == MergePage(index, Gathered(server, search, shell, 0, n))
  {
    FetchLoopDiverges(rule, server, search, shell, 0, index, fuel);
    FetchLoopRequests(rule, server, search, shell, 0, index, fuel);
    FetchLoopStopsFirst(rule, server, search, shell, 0, index, fuel);
    FetchLoopIndex(rule, server, search, shell, 0, index, fuel);
    FetchLoop(rule, server, search, shell, 0, index, fuel)
  }

  /** There is only one first stopping page. */
  lemma FirstStopUnique(rule: StopRule, server: Server, search: string, shell: string, j: int, k: int)
    requires FirstStop(rule, server, search, shell, j) && FirstStop(rule, server, search, shell, k)
    ensures j == k
  {
  }

  /** The pages a fetch asks for start at 1, go up by one and are never 0. */
  lemma FetchDbPagesAscending(rule: StopRule, server: Server, search: string, shell: string, index: Index, fuel: nat)
    requires FetchDb(rule, server, search, shell, index, fuel).Some?
    ensures var rs := FetchDb(rule, server, search, shell, index, fuel).value.requests;
            && |rs| >= 1 && rs[0].page == 1
            && (forall i :: 0 <= i < |rs| ==> rs[i].page == i + 1 && rs[i].search == search && rs[i].shellVersion == shell)
            && (forall i, j :: 0 <= i < j < |rs| ==> rs[i].page < rs[j].page)
  {
  }

  /** Given enough fuel, the fetch is determined by its first stopping page. */
  lemma FetchDbAt(rule: StopRule, server: Server, search: string, shell: string, index: Index, fuel: nat, k: nat)
    requires FirstStop(rule, server, search, shell, k) && k <= fuel
    ensures FetchDb(rule, server, search, shell, index, fuel)
            == Some(Fetched(MergePage(index, Gathered(server, search, shell, 0, k)), Requests(search, shell, k)))
  {
    var r := FetchDb(rule, server, search, shell, index, fuel);
    assert r.Some?;
    FirstStopUnique(rule, server, search, shell, |r.value.requests|, k);
  }

  /** The source's inner range loop, as a method: each extension of the
      page is stored under its UUID in turn, which is MergePage. */
  method StoreAll(index0: Index, exts: seq<Extension>) returns (index: Index)
    ensures index == MergePage(index0, exts)
  {
    index := index0;
    var i := 0;
    while i < |exts|
      invariant 0 <= i <= |exts|
      invariant index == MergePage(index0, exts[..i])
    {
      var a := exts[i];
      MergeSnoc(index0, exts[..i], a);
      assert exts[..i + 1] == exts[..i] + [a];
      index := index[a.uuid := a];
      i := i + 1;
    }
    assert exts[..i] == exts;
  }

  /** The source's loop, as a method: one request per iteration with page
      numbers counting up from 1, an inner loop storing each extension under
      its UUID, and a return once `Numpages == page` (or the corrected test).
      It needs a page `stop` at which the loop stops; without one the source
      never returns. */
  method FetchDbLoop(rule: StopRule, server: Server, search: string, shell: string,
                     index0: Index, ghost stop: nat)
    returns (index: Index, requests: seq<PageRequest>)
    requires stop >= 1 && Stops(rule, PageOf(server, search, shell, stop).numpages, stop)
    ensures FirstStop(rule, server, search, shell, |requests|) && |requests| <= stop
    ensures requests == Requests(search, shell, |requests|)
    ensures index == MergePage(index0, Gathered(server, search, shell, 0, |requests|))
    ensures FetchDb(rule, server, search, shell, index0, stop) == Some(Fetched(index, requests))
  {
    index := index0;
    requests := [];
    var page := 0;
    while true
      invariant page == |requests| < stop
      invariant requests == Requests(search, shell, page)
      invariant forall p :: 1 <= p <= page ==> !Stops(rule, PageOf(server, search, shell, p).numpages, p)
      invariant index == MergePage(index0, Gathered(server, search, shell, 0, page))
      decreases stop - page
    {
      page := page + 1;
      var req := PageRequest(search, shell, page);
      requests := requests + [req];
      var res := server(req);
      index := StoreAll(index, res.extensions);
      MergeAppend(index0, Gathered(server, search, shell, 0, page - 1), res.extensions);
      if Stops(rule, res.numpages, page) {
        FetchDbAt(rule, server, search, shell, index0, stop, page);
        return;
      }
    }
  }

  /** Every UUID in the fetched index holds the last entry for it among all
      pages fetched, in page order; keys no page carried keep their values. */
  lemma FetchDbLastWriteWins(rule: StopRule, server: Server, search: string, shell: string,
                             index: Index, fuel: nat, uuid: string)
    requires FetchDb(rule, server, search, shell, index, fuel).Some?
    ensures var f := FetchDb(rule, server, search, shell, index, fuel).value;
            var all := Gathered(server, search, shell, 0, |f.requests|);
            && (LastWith(all, uuid).Some? ==> uuid in f.index && f.index[uuid] == LastWith(all, uuid).value)
            && (LastWith(all, uuid).None? ==> (uuid in f.index <==> uuid in index)
                                              && (uuid in index ==> f.index[uuid] == index[uuid]))
  {
    var f := FetchDb(rule, server, search, shell, index, fuel).value;
    MergeLastWriteWins(index, Gathered(server, search, shell, 0, |f.requests|), uuid);
  }

  /** With the source's `Numpages == page` test and a service that reports
      the same page count N >= 1 on every page, the loop returns after
      exactly N requests (pages 1 to N) and not before. */
  lemma ExactMatchConstantPages(server: Server, search: string, shell: string, index: Index, fuel: nat, n: int)
    requires n >= 1
    requires forall p :: PageOf(server, search, shell, p).numpages == n
    ensures FetchDb(ExactMatch, server, search, shell, index, fuel).Some? <==> n <= fuel
    ensures n <= fuel ==>
              FetchDb(ExactMatch, server, search, shell, index, fuel)
              == Some(Fetched(MergePage(index, Gathered(server, search, shell, 0, n)), Requests(search, shell, n)))
  {
    assert FirstStop(ExactMatch, server, search, shell, n);
    if n <= fuel {
      FetchDbAt(ExactMatch, server, search, shell, index, fuel, n);
    }
  }

  /** The `Numpages == page` test never holds for a page count of zero or
      less, since pages are numbered from 1: a search the service answers
      with such a count is requested page after page without end. */
  lemma ExactMatchNeverStopsBelowOne(server: Server, search: string, shell: string, index: Index, fuel: nat)
    requires forall p :: PageOf(server, search, shell, p).numpages <= 0
    ensures FetchDb(ExactMatch, server, search, shell, index, fuel) == None
  {
  }

  /** The corrected `Numpages <= page` test: with a constant page count N the
      loop makes exactly max(N, 1) requests, so a count of zero or one means
      a single page and page 0 is never requested. */
  lemma ReachedOrPastConstantPages(server: Server, search: string, shell: string, index: Index, fuel: nat, n: int)
    requires forall p :: PageOf(server, search, shell, p).numpages == n
    ensures var k := if n < 1 then 1 else n;
            && (FetchDb(ReachedOrPast, server, search, shell, index, fuel).Some? <==> k <= fuel)
            && (k <= fuel ==>
                  FetchDb(ReachedOrPast, server, search, shell, index, fuel)
                  == Some(Fetched(MergePage(index, Gathered(server, search, shell, 0, k)), Requests(search, shell, k))))
  {
    var k := if n < 1 then 1 else n;
    assert FirstStop(ReachedOrPast, server, search, shell, k);
    if k <= fuel {
      FetchDbAt(ReachedOrPast, server, search, shell, index, fuel, k);
    } else {
      assert forall p :: 1 <= p <= fuel ==> !Stops(ReachedOrPast, PageOf(server, search, shell, p).numpages, p);
    }
  }

  /** A two-page search: three extensions on page 1 and one on page 2, both
      pages reporting two pages in all, gives four entries after exactly two
      requests. */
  lemma TwoPageSearch(server: Server, search: string, shell: string, fuel: nat,
                      e1: Extension, e2: Extension, e3: Extension, e4: Extension)
    requires |{e1.uuid, e2.uuid, e3.uuid, e4.uuid}| == 4
    requires PageOf(server, search, shell, 1) == SearchResult([e1, e2, e3], 2)
    requires PageOf(server, search, shell, 2) == SearchResult([e4], 2)
    requires fuel >= 2
    ensures FetchDb(ExactMatch, server, search, shell, map[], fuel).Some?
    ensures var f := FetchDb(ExactMatch, server, search, shell, map[], fuel).value;
            && f.requests == [PageRequest(search, shell, 1), PageRequest(search, shell, 2)]
            && f.index.Keys == {e1.uuid, e2.uuid, e3.uuid, e4.uuid}
            && |f.index| == 4
  {
    assert FirstStop(ExactMatch, server, search, shell, 2);
    FetchDbAt(ExactMatch, server, search, shell, map[], fuel, 2);
    TwoPagesGathered(server, search, shell, e1, e2, e3, e4);
    MergePageKeys(map[], [e1, e2, e3, e4]);
    UuidsOfFour(e1, e2, e3, e4);
    TwoRequests(search, shell);
    var f := FetchDb(ExactMatch, server, search, shell, map[], fuel).value;
    assert |f.index| == |f.index.Keys|;
  }

  lemma TwoPagesGathered(server: Server, search: string, shell: string,
                         e1: Extension, e2: Extension, e3: Extension, e4: Extension)
    requires PageOf(server, search, shell, 1).extensions == [e1, e2, e3]
    requires PageOf(server, search, shell, 2).extensions == [e4]
    ensures Gathered(server, search, shell, 0, 2) == [e1, e2, e3, e4]
  {
    assert Gathered(server, search, shell, 0, 0) == [];
    assert Gathered(server, search, shell, 0, 1) == [e1, e2, e3];
  }

  lemma UuidsOfFour(e1: Extension, e2: Extension, e3: Extension, e4: Extension)
    ensures Uuids([e1, e2, e3, e4]) == {e1.uuid, e2.uuid, e3.uuid, e4.uuid}
  {
    var all := [e1, e2, e3, e4];
    assert all[0] == e1 && all[1] == e2 && all[2] == e3 && all[3] == e4;
  }

  lemma TwoRequests(search: string, shell: string)
    ensures Requests(search, shell, 2) == [PageRequest(search, shell, 1), PageRequest(search, shell, 2)]
  {
  }
}

=== FILE: commands.dfy ===
/** The commands built on the catalog fetch: search, install and about in
    the current revision, and the install and download gates of the earlier
    one. Each command starts from the empty index the program is created
    with, fetches the pages for its query, and then looks its UUID up. The
    external steps (the HTTP download, `gnome-extensions install`,
    `gnome-extensions enable`) are inputs saying whether each one succeeded;
    their effects are recorded in order.

    Every command takes the stop test it fetches with, and install also
    takes when it removes the temporary file. The program as written is the
    instance `ExactMatch` with `Deferred`; the corrected one is
    `ReachedOrPast` with `BeforeEveryExit`. The lookup, outcome and
    download lemmas hold for every instance; the leak and cleanup lemmas
    name the instance they are about. */
module Commands {
  import opened Wrappers
  import opened Extensions
  import opened Catalog
  import opened Acquisition

  /** The site the "about" link is relative to. */
  const ExtensionHomeUrl := "https://extensions.gnome.org"

  /** What the install command does to the outside world, in order. */
  datatype Effect =
    | Download(url: string)   // fetch the archive into a new temporary file
    | InstallArchive          // gnome-extensions install --force <file>
    | Enable(uuid: string)    // gnome-extensions enable <uuid>
    | RemoveTempFile          // the deferred os.Remove of the temporary file

  /** Whether each external step succeeds. */
  datatype Env = Env(downloadOk: bool, installOk: bool, enableOk: bool)

  datatype Outcome = NotFound | DownloadFailed | InstallFailed | EnableFailed | Installed

  /** A command either returns normally or ends the process with os.Exit,
      which does not run deferred calls. */
  datatype Exit = Returned | Exited(code: int)

  datatype Run = Run(outcome: Outcome, effects: seq<Effect>, exit: Exit)

  /** Every external step succeeds. */
  predicate AllOk(env: Env) {
    env.downloadOk && env.installOk && env.enableOk
  }

  /** A temporary file is created once the download has succeeded. */
  predicate TempFileCreated(index: Index, uuid: string, env: Env) {
    uuid in index && env.downloadOk
  }

  /** Every step of a successful install of `ext`, in the order the
      program runs them: download, install the archive, enable, and the
      deferred removal of the temporary file. */
  function InstallSteps(ext: Extension, uuid: string, shell: string): seq<Effect> {
    [Download(DownloadUrl(ext, shell)), InstallArchive, Enable(uuid), RemoveTempFile]
  }

  /** The install command after its fetch, as the current revision writes
      it: an unknown UUID prints a message and returns; otherwise the
      archive is downloaded, installed and enabled, and a failing step ends
      the process with status 1. The removal of the temporary file is
      deferred, so it happens only when the command returns. */
  function Install(index: Index, uuid: string, shell: string, env: Env): (r: Run)
    ensures r.outcome == NotFound <==> uuid !in index
    ensures r.outcome == NotFound ==> r.effects == [] && r.exit == Returned
    ensures uuid in index ==> |r.effects| > 0 && r.effects[0].Download?
    ensures r.outcome == Installed <==> uuid in index && AllOk(env)
    ensures r.exit == Returned <==> r.outcome in {NotFound, Installed}
    ensures r.exit != Returned ==> r.exit == Exited(1)
    ensures InstallArchive in r.effects ==> env.downloadOk
    ensures Enable(uuid) in r.effects ==> env.downloadOk && env.installOk
    ensures RemoveTempFile in r.effects <==> r.outcome == Installed
    ensures r.outcome == DownloadFailed <==> uuid in index && !env.downloadOk
    ensures r.outcome == InstallFailed <==> uuid in index && env.downloadOk && !env.installOk
    ensures r.outcome == EnableFailed <==> uuid in index && env.downloadOk && env.installOk && !env.enableOk
    ensures uuid in index ==>
              r.effects <= InstallSteps(index[uuid], uuid, shell)
    ensures r.outcome in {InstallFailed, EnableFailed, Installed} ==> InstallArchive in r.effects
    ensures r.outcome in {EnableFailed, Installed} ==> Enable(uuid) in r.effects
  {
    if uuid !in index then Run(NotFound, [], Returned)
    else
      var get := Download(DownloadUrl(index[uuid], shell));
      if !env.downloadOk then Run(DownloadFailed, [get], Exited(1))
      else if !env.installOk then Run(InstallFailed, [get, InstallArchive], Exited(1))
      else if !env.enableOk then Run(EnableFailed, [get, InstallArchive, Enable(uuid)], Exited(1))
      else Run(Installed, [get, InstallArchive, Enable(uuid), RemoveTempFile], Returned)
  }

  /** The archive downloaded is the one for the entry stored under the UUID
      and the running shell version. */
  lemma InstallDownloadsStoredEntry(index: Index, uuid: string, shell: string, env: Env)
    requires uuid in index
    ensures Install(index, uuid, shell, env).effects[0] == Download(DownloadUrl(index[uuid], shell))
  {
  }

  /** The install command with the temporary file removed before every
      exit that follows its creation. */
  function InstallWithCleanup(index: Index, uuid: string, shell: string, env: Env): (r: Run)
    ensures r.outcome == NotFound <==> uuid !in index
    ensures r.outcome == Installed <==> uuid in index && AllOk(env)
    ensures r.exit == Returned <==> r.outcome in {NotFound, Installed}
    ensures r.exit != Returned ==> r.exit == Exited(1)
    ensures RemoveTempFile in r.effects <==> TempFileCreated(index, uuid, env)
    ensures TempFileCreated(index, uuid, env) ==> r.effects[|r.effects| - 1] == RemoveTempFile
  {
    var run := Install(index, uuid, shell, env);
    if run.outcome in {InstallFailed, EnableFailed} then
      Run(run.outcome, run.effects + [RemoveTempFile], run.exit)
    else run
  }

  /** When installing the archive or enabling the extension fails, the
      current revision exits with the downloaded file still on disk. */
  lemma InstallLeaksTempFileOnFailure(index: Index, uuid: string, shell: string, env: Env)
    requires TempFileCreated(index, uuid, env) && !(env.installOk && env.enableOk)
    ensures var r := Install(index, uuid, shell, env);
            r.exit == Exited(1) && RemoveTempFile !in r.effects
  {
  }

  /** The corrected command performs the same external steps, in the same
      order, as the written one; it only adds the removal. */
  lemma CleanupKeepsSteps(index: Index, uuid: string, shell: string, env: Env)
    ensures var w := Install(index, uuid, shell, env);
            var c := InstallWithCleanup(index, uuid, shell, env);
            && c.outcome == w.outcome && c.exit == w.exit
            && (forall e :: e != RemoveTempFile ==> (e in c.effects <==> e in w.effects))
            && w.effects <= c.effects
  {
  }

  /** When install removes the temporary file: through the deferred call
      only, which `os.Exit` skips (the program as written), or before every
      exit that follows the download (the corrected program). */
  datatype Removal = Deferred | BeforeEveryExit

  /** The install step after the fetch, with the given removal. Both agree
      on everything but the removal, as `CleanupKeepsSteps` states. */
  function InstallWith(removal: Removal, index: Index, uuid: string, shell: string, env: Env): (r: Run)
    ensures r.outcome == NotFound <==> uuid !in index
    ensures r.outcome == Installed <==> uuid in index && AllOk(env)
    ensures r.outcome == NotFound ==> r.effects == []
    ensures r.exit == Returned <==> r.outcome in {NotFound, Installed}
    ensures r.exit != Returned ==> r.exit == Exited(1)
    ensures uuid in index ==> |r.effects| > 0 && r.effects[0] == Download(DownloadUrl(index[uuid], shell))
    ensures var w := Install(index, uuid, shell, env);
            && r.outcome == w.outcome && r.exit == w.exit
            && (r.effects == w.effects || r.effects == w.effects + [RemoveTempFile])
  {
    match removal
    case Deferred => Install(index, uuid, shell, env)
    case BeforeEveryExit => InstallWithCleanup(index, uuid, shell, env)
  }

  /** The whole install command: fetch the pages for the UUID as the search
      text into the empty index with the stop test `rule`, then install.
      `None` when the fetch does not stop within `fuel` requests. The
      program as written is `InstallCommand(ExactMatch, Deferred, …)`. */
  function InstallCommand(rule: StopRule, removal: Removal, server: Server, uuid: string, shell: string,
                          env: Env, fuel: nat): (r: Option<Run>)
    ensures r.None? <==> FetchDb(rule, server, uuid, shell, map[], fuel).None?
    ensures r.Some? ==>
              var f := FetchDb(rule, server, uuid, shell, map[], fuel).value;
              var all := Gathered(server, uuid, shell, 0, |f.requests|);
              && (r.value.outcome == NotFound <==> LastWith(all, uuid).None?)
              && (r.value.outcome == Installed <==> LastWith(all, uuid).Some? && AllOk(env))
              && (r.value.outcome == NotFound ==> r.value.effects == [])
              && (r.value.exit == Returned <==> r.value.outcome in {NotFound, Installed})
              && (r.value.exit != Returned ==> r.value.exit == Exited(1))
  {
    match FetchDb(rule, server, uuid, shell, map[], fuel)
    case None => None
    case Some(f) =>
      FetchDbLastWriteWins(rule, server, uuid, shell, map[], fuel, uuid);
      Some(InstallWith(removal, f.index, uuid, shell, env))
  }

  /** The extension installed is the last one with the UUID among the pages
      fetched, and its download URL is built from that entry. */
  lemma InstallCommandUsesLastEntry(rule: StopRule, removal: Removal, server: Server, uuid: string,
                                    shell: string, env: Env, fuel: nat)
    requires FetchDb(rule, server, uuid, shell, map[], fuel).Some?
    ensures var f := FetchDb(rule, server, uuid, shell, map[], fuel).value;
            var last := LastWith(Gathered(server, uuid, shell, 0, |f.requests|), uuid);
            last.Some? ==>
              InstallCommand(rule, removal, server, uuid, shell, env, fuel).value.effects[0]
              == Download(DownloadUrl(last.value, shell))
  {
    FetchDbLastWriteWins(rule, server, uuid, shell, map[], fuel, uuid);
  }

  /** The command as written: once a fetched page lists the UUID and the
      download succeeded, a failing install or enable exits with status 1
      and leaves the downloaded file behind. */
  lemma InstallCommandLeaksOnFailure(rule: StopRule, server: Server, uuid: string, shell: string,
                                     env: Env, fuel: nat)
    requires FetchDb(rule, server, uuid, shell, map[], fuel).Some?
    requires env.downloadOk && !(env.installOk && env.enableOk)
    ensures var f := FetchDb(rule, server, uuid, shell, map[], fuel).value;
            var r := InstallCommand(rule, Deferred, server, uuid, shell, env, fuel).value;
            LastWith(Gathered(server, uuid, shell, 0, |f.requests|), uuid).Some? ==>
              r.exit == Exited(1) && RemoveTempFile !in r.effects
  {
    FetchDbLastWriteWins(rule, server, uuid, shell, map[], fuel, uuid);
  }

  /** The corrected command removes the temporary file exactly when a
      fetched page lists the UUID and the download succeeded. */
  lemma InstallCommandCleansUp(rule: StopRule, server: Server, uuid: string, shell: string,
                               env: Env, fuel: nat)
    requires FetchDb(rule, server, uuid, shell, map[], fuel).Some?
    ensures var f := FetchDb(rule, server, uuid, shell, map[], fuel).value;
            var r := InstallCommand(rule, BeforeEveryExit, server, uuid, shell, env, fuel).value;
            RemoveTempFile in r.effects
            <==> LastWith(Gathered(server, uuid, shell, 0, |f.requests|), uuid).Some? && env.downloadOk
  {
    FetchDbLastWriteWins(rule, server, uuid, shell, map[], fuel, uuid);
  }

  /** When every answer reports no pages, the command as written never
      gets past its fetch, for any fuel; the corrected fetch stops after
      the first request. */
  lemma InstallCommandWithoutPages(removal: Removal, server: Server, uuid: string, shell: string,
                                   env: Env, fuel: nat)
    requires forall p :: PageOf(server, uuid, shell, p).numpages <= 0
    ensures InstallCommand(ExactMatch, removal, server, uuid, shell, env, fuel) == None
    ensures 1 <= fuel ==> InstallCommand(ReachedOrPast, removal, server, uuid, shell, env, fuel).Some?
  {
    ExactMatchNeverStopsBelowOne(server, uuid, shell, map[], fuel);
    if 1 <= fuel {
      assert Stops(ReachedOrPast, PageOf(server, uuid, shell, 1).numpages, 1);
    }
  }

  /** What about prints for a found extension. */
  datatype About = About(name: string, uuid: string, creator: string, homepage: string, description: string)

  /** about after its fetch: exit status 1 for an unknown UUID, otherwise
      the short information, the homepage on the extensions site and the
      description of the entry stored under the UUID. */
  function AboutOf(index: Index, uuid: string): (r: Result<About, Exit>)
    ensures r.Failure? <==> uuid !in index
    ensures r.Failure? ==> r.error == Exited(1)
    ensures r.Success? ==>
              var e := index[uuid];
              && r.value.homepage == ExtensionHomeUrl + e.link
              && r.value.description == e.description
              && r.value.name == e.name && r.value.uuid == e.uuid && r.value.creator == e.creator
  {
    if uuid !in index then Failure(Exited(1))
    else
      var e := index[uuid];
      Success(About(e.name, e.uuid, e.creator, ExtensionHomeUrl + e.link, e.description))
  }

  /** The about command: fetch for the UUID into the empty index with the
      stop test `rule`, then look it up. */
  function AboutCommand(rule: StopRule, server: Server, uuid: string, shell: string, fuel: nat)
    : (r: Option<Result<About, Exit>>)
    ensures r.None? <==> FetchDb(rule, server, uuid, shell, map[], fuel).None?
  {
    match FetchDb(rule, server, uuid, shell, map[], fuel)
    case None => None
    case Some(f) => Some(AboutOf(f.index, uuid))
  }

  /** about reports the last entry with the UUID among the fetched pages,
      and fails with status 1 exactly when no page lists it. */
  lemma AboutCommandReportsLastEntry(rule: StopRule, server: Server, uuid: string, shell: string, fuel: nat)
    requires FetchDb(rule, server, uuid, shell, map[], fuel).Some?
    ensures var f := FetchDb(rule, server, uuid, shell, map[], fuel).value;
            var last := LastWith(Gathered(server, uuid, shell, 0, |f.requests|), uuid);
            var r := AboutCommand(rule, server, uuid, shell, fuel).value;
            && (r.Failure? <==> last.None?)
            && (r.Failure? ==> r.error == Exited(1))
            && (last.Some? ==> r.value == About(last.value.name, uuid, last.value.creator,
                                                ExtensionHomeUrl + last.value.link, last.value.description))
  {
    FetchDbLastWriteWins(rule, server, uuid, shell, map[], fuel, uuid);
  }

  /** search: fetch for the query into the empty index with the stop test
      `rule`, and list every extension stored (Go's map order is
      unspecified, so a set). */
  function SearchCommand(rule: StopRule, server: Server, query: string, shell: string, fuel: nat)
    : (r: Option<set<Extension>>)
    ensures r.None? <==> FetchDb(rule, server, query, shell, map[], fuel).None?
  {
    match FetchDb(rule, server, query, shell, map[], fuel)
    case None => None
    case Some(f) => Some(set u | u in f.index :: f.index[u])
  }

  /** Every listed extension came from a fetched page, and every UUID on a
      fetched page is listed exactly once, with its last entry. */
  lemma SearchListsGathered(rule: StopRule, server: Server, query: string, shell: string, fuel: nat, uuid: string)
    requires FetchDb(rule, server, query, shell, map[], fuel).Some?
    ensures var f := FetchDb(rule, server, query, shell, map[], fuel).value;
            var all := Gathered(server, query, shell, 0, |f.requests|);
            var listed := SearchCommand(rule, server, query, shell, fuel).value;
            && (forall e :: e in listed ==> e in all)
            && (LastWith(all, uuid).Some? ==> LastWith(all, uuid).value in listed)
            && (forall e :: e in listed && e.uuid == uuid ==> Some(e) == LastWith(all, uuid))
  {
    var f := FetchDb(rule, server, query, shell, map[], fuel).value;
    var all := Gathered(server, query, shell, 0, |f.requests|);
    forall u | u in f.index ensures f.index[u] in all && f.index[u].uuid == u && f.index[u] == LastWith(all, u).value {
      FetchDbLastWriteWins(rule, server, query, shell, map[], fuel, u);
    }
    FetchDbLastWriteWins(rule, server, query, shell, map[], fuel, uuid);
  }

  /** The listing is exactly the fetched entries that are the last ones
      with their UUID. */
  lemma SearchListsLastEntries(rule: StopRule, server: Server, query: string, shell: string, fuel: nat)
    requires FetchDb(rule, server, query, shell, map[], fuel).Some?
    ensures var f := FetchDb(rule, server, query, shell, map[], fuel).value;
            var all := Gathered(server, query, shell, 0, |f.requests|);
            SearchCommand(rule, server, query, shell, fuel).value
            == set e | e in all && LastWith(all, e.uuid) == Some(e)
  {
    var f := FetchDb(rule, server, query, shell, map[], fuel).value;
    var all := Gathered(server, query, shell, 0, |f.requests|);
    forall u | u in f.index ensures f.index[u] in all && f.index[u].uuid == u && f.index[u] == LastWith(all, u).value {
      FetchDbLastWriteWins(rule, server, query, shell, map[], fuel, u);
    }
    forall e | e in all && LastWith(all, e.uuid) == Some(e) ensures e.uuid in f.index && f.index[e.uuid] == e {
      FetchDbLastWriteWins(rule, server, query, shell, map[], fuel, e.uuid);
    }
  }

  /** The earlier revision's gate, shared by its install and download: an
      unknown UUID prints "unable to find extension" and returns; a known
      one is printed. Neither reaches any external step. */
  function EarlierGate(index: Index, uuid: string): (r: Option<Extension>)
    ensures r.None? <==> uuid !in index
    ensures r.Some? ==> r.value == index[uuid]
  {
    if uuid in index then Some(index[uuid]) else None
  }

  /** The earlier revision's install and download: fetch for the UUID with
      the stop test `rule`, then the gate. */
  function EarlierCommand(rule: StopRule, server: Server, uuid: string, shell: string, fuel: nat)
    : (r: Option<Option<Extension>>)
    ensures r.None? <==> FetchDb(rule, server, uuid, shell, map[], fuel).None?
  {
    match FetchDb(rule, server, uuid, shell, map[], fuel)
    case None => None
    case Some(f) => Some(EarlierGate(f.index, uuid))
  }

  /** The earlier gate finds the last entry with the UUID among the pages
      fetched, and nothing when no page lists it. */
  lemma EarlierFindsLastEntry(rule: StopRule, server: Server, uuid: string, shell: string, fuel: nat)
    requires FetchDb(rule, server, uuid, shell, map[], fuel).Some?
    ensures var f := FetchDb(rule, server, uuid, shell, map[], fuel).value;
            EarlierCommand(rule, server, uuid, shell, fuel).value
            == LastWith(Gathered(server, uuid, shell, 0, |f.requests|), uuid)
  {
    FetchDbLastWriteWins(rule, server, uuid, shell, map[], fuel, uuid);
  }

  /** The current install finds exactly the extensions the earlier revision
      found: both fetch the same pages and look up the same UUID. */
  lemma EarlierAgreesWithInstall(rule: StopRule, removal: Removal, server: Server, uuid: string,
                                 shell: string, env: Env, fuel: nat)
    ensures EarlierCommand(rule, server, uuid, shell, fuel).Some?
            <==> InstallCommand(rule, removal, server, uuid, shell, env, fuel).Some?
    ensures EarlierCommand(rule, server, uuid, shell, fuel).Some? ==>
              (EarlierCommand(rule, server, uuid, shell, fuel).value.None?
               <==> InstallCommand(rule, removal, server, uuid, shell, env, fuel).value.outcome == NotFound)
  {
  }
}

=== FILE: extensions.dfy ===
/** The catalog's records as the remote service returns them. */
module Extensions {

  /** One build of an extension for one shell release line: the catalog's
      primary key for it and its build number. */
  datatype VersionBuild = VersionBuild(pk: int, version: int)

  /** An extension: its UUID (an opaque identifier that may contain '@'),
      display fields, and the builds it has, keyed by "major.minor" shell
      version strings. */
  datatype Extension = Extension(
    uuid: string,
    name: string,
    creator: string,
    description: string,
    link: string,
    shellVersion: map<string, VersionBuild>)

  /** One page of search results and the page count the service reports. */
  datatype SearchResult = SearchResult(extensions: seq<Extension>, numpages: int)

  /** The in-memory catalog index: extensions keyed by UUID. */
  type Index = map<string, Extension>

  /** Every entry of the index is stored under its own UUID. */
  predicate WellKeyed(index: Index) {
    forall k :: k in index ==> index[k].uuid == k
  }
}

=== FILE: gostrings.dfy ===
/** The pieces of Go's `strings` and `strconv` packages the catalog pipeline
    relies on: `Index`, `Replace(s, pat, repl, 1)`, `Split` on a one-character
    separator, `Join`, `TrimSpace` and `Itoa`. Strings are sequences of
    Unicode code points. */
module GoStrings {
  import opened Wrappers

  /** `pat` occurs in `s` starting at position `i`. */
  predicate OccursAt(s: string, pat: string, i: nat) {
    i + |pat| <= |s| && s[i..i + |pat|] == pat
  }

  /** `pat` does not occur in `s` at any position. */
  predicate Absent(s: string, pat: string) {
    forall j :: 0 <= j <= |s| ==> !OccursAt(s, pat, j)
  }

  /** First position at or after `from` where `pat` occurs (strings.Index). */
  function IndexFrom(s: string, pat: string, from: nat): (r: Option<nat>)
    requires from <= |s|
    ensures r.Some? ==> from <= r.value <= |s| && OccursAt(s, pat, r.value)
    ensures r.Some? ==> forall j :: from <= j < r.value ==> !OccursAt(s, pat, j)
    ensures r.None? ==> forall j :: from <= j <= |s| ==> !OccursAt(s, pat, j)
    decreases |s| - from
  {
    if OccursAt(s, pat, from) then Some(from)
    else if from == |s| then None
    else IndexFrom(s, pat, from + 1)
  }

  function FirstIndex(s: string, pat: string): Option<nat> {
    IndexFrom(s, pat, 0)
  }

  /** strings.Replace(s, pat, repl, 1): the first occurrence of `pat` becomes
      `repl`; a string without `pat` is returned as it is. For an empty `pat`
      Go inserts `repl` at the front, which is the occurrence at position 0. */
  function ReplaceFirst(s: string, pat: string, repl: string): string {
    match FirstIndex(s, pat)
    case None => s
    case Some(i) => Splice(s, i, |pat|, repl)
  }

  /** `s` with the `n` characters at position `i` replaced by `repl`. */
  function Splice(s: string, i: nat, n: nat, repl: string): string
    requires i + n <= |s|
  {
    s[..i] + repl + s[i + n..]
  }

  /** What Replace with count 1 does: text without the pattern is returned
      as it is; otherwise the first occurrence, and only it, becomes `repl`. */
  lemma ReplaceFirstSpec(s: string, pat: string, repl: string)
    ensures Absent(s, pat) ==> ReplaceFirst(s, pat, repl) == s
    ensures forall i: nat :: OccursAt(s, pat, i) && (forall j :: 0 <= j < i ==> !OccursAt(s, pat, j))
                        ==> ReplaceFirst(s, pat, repl) == s[..i] + repl + s[i + |pat|..]
  {
    if Absent(s, pat) {
      FirstIndexNone(s, pat);
    }
    forall i: nat | OccursAt(s, pat, i) && (forall j :: 0 <= j < i ==> !OccursAt(s, pat, j))
      ensures ReplaceFirst(s, pat, repl) == s[..i] + repl + s[i + |pat|..]
    {
      FirstIndexSome(s, pat, i);
    }
  }

  /** An occurrence in the tail of `a + b` is an occurrence in `b`, shifted by `|a|`. */
  lemma OccursShift(a: string, b: string, pat: string, j: nat)
    ensures OccursAt(a + b, pat, |a| + j) <==> OccursAt(b, pat, j)
  {
    if |a| + j + |pat| <= |a + b| {
      assert (a + b)[|a| + j..|a| + j + |pat|] == b[j..j + |pat|];
    }
  }

  /** An occurrence wholly inside `a` is an occurrence in `a + b`. */
  lemma OccursPrefix(a: string, b: string, pat: string, j: nat)
    requires j + |pat| <= |a|
    ensures OccursAt(a + b, pat, j) <==> OccursAt(a, pat, j)
  {
    assert (a + b)[j..j + |pat|] == a[j..j + |pat|];
  }

  /** When nothing in `a + b` matches before `b` starts, replacing happens inside `b`. */
  lemma ReplaceFirstSkip(a: string, b: string, pat: string, repl: string)
    requires forall j: nat :: j < |a| ==> !OccursAt(a + b, pat, j)
    ensures ReplaceFirst(a + b, pat, repl) == a + ReplaceFirst(b, pat, repl)
  {
    var s := a + b;
    match FirstIndex(b, pat)
    case None =>
      forall j: nat | |a| <= j <= |s| ensures !OccursAt(s, pat, j) {
        OccursShift(a, b, pat, j - |a|);
      }
      FirstIndexNone(s, pat);
    case Some(i) =>
      ReplaceFirstSkipAt(a, b, pat, repl, i);
  }

  lemma ReplaceFirstSkipAt(a: string, b: string, pat: string, repl: string, i: nat)
    requires forall j: nat :: j < |a| ==> !OccursAt(a + b, pat, j)
    requires FirstIndex(b, pat) == Some(i)
    ensures ReplaceFirst(a + b, pat, repl) == a + ReplaceFirst(b, pat, repl)
  {
    FirstIndexShift(a, b, pat, i);
    ReplaceAtIndex(a + b, pat, repl, |a| + i);
    ReplaceAtIndex(b, pat, repl, i);
    SpliceShift(a, b, repl, i, |pat|);
  }

  /** Splicing into `b` inside `a + b` is splicing into `b` and putting `a` in front. */
  lemma SpliceShift(a: string, b: string, repl: string, i: nat, n: nat)
    requires i + n <= |b|
    ensures Splice(a + b, |a| + i, n, repl) == a + Splice(b, i, n, repl)
  {
    var s := a + b;
    var k := |a| + i;
    assert s[..k] == a + b[..i];
    assert s[k + n..] == b[i + n..];
  }

  lemma FirstIndexShift(a: string, b: string, pat: string, i: nat)
    requires forall j: nat :: j < |a| ==> !OccursAt(a + b, pat, j)
    requires FirstIndex(b, pat) == Some(i)
    ensures FirstIndex(a + b, pat) == Some(|a| + i)
  {
    var s := a + b;
    OccursShift(a, b, pat, i);
    forall j: nat | |a| <= j < |a| + i ensures !OccursAt(s, pat, j) {
      OccursShift(a, b, pat, j - |a|);
    }
    FirstIndexSome(s, pat, |a| + i);
  }

  lemma ReplaceAtIndex(s: string, pat: string, repl: string, k: nat)
    requires FirstIndex(s, pat) == Some(k)
    ensures k + |pat| <= |s|
    ensures ReplaceFirst(s, pat, repl) == Splice(s, k, |pat|, repl)
  {
  }

  /** Index finds nothing exactly when the pattern is absent. */
  lemma FirstIndexNone(s: string, pat: string)
    requires Absent(s, pat)
    ensures FirstIndex(s, pat) == None
  {
  }

  /** Index finds the first occurrence. */
  lemma FirstIndexSome(s: string, pat: string, i: nat)
    requires OccursAt(s, pat, i)
    requires forall j: nat :: j < i ==> !OccursAt(s, pat, j)
    ensures FirstIndex(s, pat) == Some(i)
  {
    assert i <= |s|;
  }

  /** When the first occurrence lies wholly inside `a`, appending `b` does not move it. */
  lemma ReplaceFirstInPrefix(a: string, b: string, pat: string, repl: string, i: nat)
    requires OccursAt(a, pat, i)
    requires forall j: nat :: j < i ==> !OccursAt(a, pat, j)
    ensures ReplaceFirst(a + b, pat, repl) == ReplaceFirst(a, pat, repl) + b
  {
    var s := a + b;
    OccursPrefix(a, b, pat, i);
    forall j: nat | j < i ensures !OccursAt(s, pat, j) {
      OccursPrefix(a, b, pat, j);
    }
    FirstIndexSome(a, pat, i);
    FirstIndexSome(s, pat, i);
    ReplaceAtIndex(a, pat, repl, i);
    ReplaceAtIndex(s, pat, repl, i);
    SplicePrefix(a, b, repl, i, |pat|);
  }

  /** Splicing into `a` inside `a + b` is splicing into `a` and putting `b` behind. */
  lemma SplicePrefix(a: string, b: string, repl: string, i: nat, n: nat)
    requires i + n <= |a|
    ensures Splice(a + b, i, n, repl) == Splice(a, i, n, repl) + b
  {
    var s := a + b;
    assert s[..i] == a[..i];
    assert s[i + n..] == a[i + n..] + b;
  }

  /** No match can start where the pattern's first character is missing. */
  lemma NoMatchWithoutFirstChar(s: string, pat: string, n: nat)
    requires |pat| > 0 && n <= |s|
    requires pat[0] !in s[..n]
    ensures forall j: nat :: j < n ==> !OccursAt(s, pat, j)
  {
    forall j: nat | j < n ensures !OccursAt(s, pat, j) {
      assert s[j] == s[..n][j];
      if j + |pat| <= |s| {
        assert s[j..j + |pat|][0] != pat[0];
      }
    }
  }

  /** A pattern absent from `a` cannot straddle into `b` when `b` starts with a
      character foreign to the pattern. */
  lemma NoStraddle(a: string, b: string, pat: string)
    requires Absent(a, pat)
    requires |b| > 0 && b[0] !in pat
    ensures forall j: nat :: j < |a| ==> !OccursAt(a + b, pat, j)
  {
    forall j: nat | j < |a| ensures !OccursAt(a + b, pat, j) {
      if j + |pat| <= |a| {
        OccursPrefix(a, b, pat, j);
      } else if j + |pat| <= |a + b| {
        assert (a + b)[j..j + |pat|][|a| - j] == b[0];
        assert pat[|a| - j] != b[0];
      }
    }
  }

  /** Absence in both halves, with no match starting in the front half, is absence in the whole. */
  lemma AbsentAppend(a: string, b: string, pat: string)
    requires forall j: nat :: j < |a| ==> !OccursAt(a + b, pat, j)
    requires Absent(b, pat)
    ensures Absent(a + b, pat)
  {
    forall j: nat | |a| <= j <= |a + b| ensures !OccursAt(a + b, pat, j) {
      OccursShift(a, b, pat, j - |a|);
    }
  }

  /** Concatenation regroups freely; the step Dafny needs between a
      left-nested and a right-nested string literal chain. */
  lemma AppendAssoc(x: string, y: string, z: string)
    ensures x + y + z == x + (y + z)
  {
  }

  /** A character of `a + b` comes from `a` or from `b`. */
  lemma NotInConcat(a: string, b: string, c: char)
    requires c !in a && c !in b
    ensures c !in a + b
  {
  }

  /** Number of occurrences of the character `c` in `s` (strings.Count for a one-character pattern). */
  function CountChar(s: string, c: char): nat {
    if |s| == 0 then 0 else (if s[0] == c then 1 else 0) + CountChar(s[1..], c)
  }

  lemma {:induction false} CountCharZero(s: string, c: char)
    ensures CountChar(s, c) == 0 <==> c !in s
  {
    if |s| > 0 {
      CountCharZero(s[1..], c);
      assert s == [s[0]] + s[1..];
    }
  }

  lemma {:induction false} CountCharAppend(a: string, b: string, c: char)
    ensures CountChar(a + b, c) == CountChar(a, c) + CountChar(b, c)
  {
    if |a| > 0 {
      assert (a + b)[1..] == a[1..] + b;
      CountCharAppend(a[1..], b, c);
    } else {
      assert a + b == b;
    }
  }

  /** strings.Join(parts, string([sep])). */
  function Join(parts: seq<string>, sep: char): string {
    if |parts| == 0 then ""
    else if |parts| == 1 then parts[0]
    else parts[0] + [sep] + Join(parts[1..], sep)
  }

  /** strings.Split(s, string([sep])): the pieces of `s` between separators.
      Splitting is the inverse of joining: the pieces hold no separator and
      joining them back gives `s`; there is one more piece than separators. */
  function Split(s: string, sep: char): (parts: seq<string>)
    ensures |parts| == CountChar(s, sep) + 1
    ensures forall i :: 0 <= i < |parts| ==> sep !in parts[i]
    ensures Join(parts, sep) == s
    decreases |s|
  {
    if |s| == 0 then [""]
    else
      var rest := Split(s[1..], sep);
      if s[0] == sep then
        assert s == [sep] + s[1..];
        [""] + rest
      else
        assert s == [s[0]] + s[1..];
        [[s[0]] + rest[0]] + rest[1..]
  }

  /** The other round trip: splitting a join of separator-free pieces gives the pieces back. */
  lemma {:induction false} SplitJoin(parts: seq<string>, sep: char)
    requires |parts| >= 1
    requires forall i :: 0 <= i < |parts| ==> sep !in parts[i]
    ensures Split(Join(parts, sep), sep) == parts
    decreases |parts|, |parts[0]|
  {
    if |parts| == 1 {
      SplitNoSep(parts[0], sep);
    } else if |parts[0]| == 0 {
      var tail := Join(parts[1..], sep);
      assert Join(parts, sep) == [sep] + tail;
      assert ([sep] + tail)[1..] == tail;
      SplitJoin(parts[1..], sep);
      assert Split([sep] + tail, sep) == [""] + parts[1..];
      assert parts == [""] + parts[1..];
    } else {
      var p0 := parts[0];
      var shorter := [p0[1..]] + parts[1..];
      assert shorter[1..] == parts[1..];
      forall i | 0 <= i < |shorter| ensures sep !in shorter[i] {
        if i == 0 {
          assert p0 == [p0[0]] + p0[1..];
        } else {
          assert shorter[i] == parts[i];
        }
      }
      SplitJoin(shorter, sep);
      var s := Join(parts, sep);
      assert s == [p0[0]] + Join(shorter, sep) by {
        assert p0 == [p0[0]] + p0[1..];
        if |parts| > 1 {
          assert Join(shorter, sep) == p0[1..] + [sep] + Join(parts[1..], sep);
        }
      }
      assert s[1..] == Join(shorter, sep);
      assert s[0] == p0[0] && s[0] != sep;
      var rest := Split(s[1..], sep);
      assert rest == shorter;
      assert Split(s, sep) == [[s[0]] + rest[0]] + rest[1..];
      assert [s[0]] + rest[0] == p0;
      assert parts == [p0] + parts[1..];
    }
  }

  /** A string without the separator splits into itself alone. */
  lemma SplitNoSep(s: string, sep: char)
    requires sep !in s
    ensures Split(s, sep) == [s]
  {
    CountCharZero(s, sep);
  }

  /** White space as Go's unicode.IsSpace defines it: tab, line feed,
      vertical tab, form feed, carriage return, space, NEL, no-break space,
      and the Unicode space separators. */
  predicate IsSpace(c: char) {
    var n := c as int;
    n == 0x09 || n == 0x0A || n == 0x0B || n == 0x0C || n == 0x0D || n == 0x20
    || n == 0x85 || n == 0xA0 || n == 0x1680 || (0x2000 <= n <= 0x200A)
    || n == 0x2028 || n == 0x2029 || n == 0x202F || n == 0x205F || n == 0x3000
  }

  /** Every character of `s` is white space. */
  predicate AllSpace(s: string) {
    forall k :: 0 <= k < |s| ==> IsSpace(s[k])
  }

  /** Drops leading white space: what is dropped is all space, what remains
      is a suffix of `s` that does not start with space. */
  function TrimLeft(s: string): (r: string)
    ensures |r| <= |s| && r == s[|s| - |r|..]
    ensures AllSpace(s[..|s| - |r|])
    ensures |r| == 0 || !IsSpace(r[0])
  {
    if |s| == 0 || !IsSpace(s[0]) then s else TrimLeft(s[1..])
  }

  /** Drops trailing white space: what is dropped is all space, what remains
      is a prefix of `s` that does not end with space. */
  function TrimRight(s: string): (r: string)
    ensures |r| <= |s| && r == s[..|r|]
    ensures AllSpace(s[|r|..])
    ensures |r| == 0 || !IsSpace(r[|r| - 1])
  {
    if |s| == 0 || !IsSpace(s[|s| - 1]) then s
    else
      var r := TrimRight(s[..|s| - 1]);
      assert s[..|s| - 1][..|r|] == s[..|r|];
      assert s[|r|..] == s[..|s| - 1][|r|..] + [s[|s| - 1]];
      r
  }

  /** strings.TrimSpace: leading and trailing white space removed. */
  function TrimSpace(s: string): string {
    TrimRight(TrimLeft(s))
  }

  /** The trimmed text neither starts nor ends with white space. */
  lemma TrimSpaceEdges(s: string)
    ensures var r := TrimSpace(s);
            |r| == 0 || (!IsSpace(r[0]) && !IsSpace(r[|r| - 1]))
  {
  }

  /** `r` occurs in `s` at position `i`, with only white space before and after it. */
  predicate SurroundedBySpace(s: string, r: string, i: nat) {
    && i + |r| <= |s| && s[i..i + |r|] == r
    && AllSpace(s[..i]) && AllSpace(s[i + |r|..])
  }

  /** `s` is `lead + TrimSpace(s) + trail` with `lead` and `trail` all white
      space, `lead` being what TrimLeft drops. */
  lemma TrimSpaceSpec(s: string)
    ensures SurroundedBySpace(s, TrimSpace(s), |s| - |TrimLeft(s)|)
  {
    var l := TrimLeft(s);
    Surrounded(s, l, TrimRight(l), |s| - |l|);
  }

  /** `r` sits at `i` in `s` between all-space text, given how `l` and `r` were cut. */
  lemma Surrounded(s: string, l: string, r: string, i: nat)
    requires i <= |s| && l == s[i..] && AllSpace(s[..i])
    requires |r| <= |l| && r == l[..|r|] && AllSpace(l[|r|..])
    ensures SurroundedBySpace(s, r, i)
  {
    TrimSlices(s, i, |r|);
  }

  lemma TrimSlices(s: string, i: nat, n: nat)
    requires i + n <= |s|
    ensures s[i..][..n] == s[i..i + n]
    ensures s[i..][n..] == s[i + n..]
  {
  }

  /** Trimming text that neither starts nor ends with white space changes nothing. */
  lemma TrimSpaceNoEdges(s: string)
    requires |s| > 0 && !IsSpace(s[0]) && !IsSpace(s[|s| - 1])
    ensures TrimSpace(s) == s
  {
  }

  /** Trimming removes leading white space, however much there is. */
  lemma {:induction false} TrimSpaceLeadingSpace(lead: string, s: string)
    requires AllSpace(lead)
    ensures TrimSpace(lead + s) == TrimSpace(s)
    decreases |lead|
  {
    if |lead| > 0 {
      assert (lead + s)[1..] == lead[1..] + s;
      TrimSpaceLeadingSpace(lead[1..], s);
    } else {
      assert lead + s == s;
    }
  }

  /** The decimal digit for 0 <= d < 10. */
  function Digit(d: nat): char
    requires d < 10
  {
    "0123456789"[d]
  }

  predicate IsDigit(c: char) {
    '0' <= c <= '9'
  }

  /** Decimal digits of a natural number, most significant first, no leading zero. */
  function NatToString(n: nat): (s: string)
    ensures |s| >= 1
    ensures forall k :: 0 <= k < |s| ==> IsDigit(s[k])
    ensures |s| > 1 ==> s[0] != '0'
    decreases n
  {
    if n < 10 then [Digit(n)] else NatToString(n / 10) + [Digit(n % 10)]
  }

  /** strconv.Itoa: decimal text, with a leading minus sign for negatives. */
  function Itoa(n: int): (s: string)
    ensures |s| >= 1
    ensures n < 0 <==> s[0] == '-'
    ensures forall k :: (if n < 0 then 1 else 0) <= k < |s| ==> IsDigit(s[k])
    ensures var d := if n < 0 then 1 else 0; |s| > d + 1 ==> s[d] != '0'
  {
    if n < 0 then "-" + NatToString(-n) else NatToString(n)
  }

  /** Value of a string of decimal digits (the reading partner of NatToString). */
  function DigitsValue(s: string): nat
    requires forall k :: 0 <= k < |s| ==> IsDigit(s[k])
  {
    if |s| == 0 then 0 else DigitsValue(s[..|s| - 1]) * 10 + DigitValue(s[|s| - 1])
  }

  function DigitValue(c: char): nat
    requires IsDigit(c)
  {
    c as int - '0' as int
  }

  /** strconv.Atoi on the strings Itoa produces. */
  function Atoi(s: string): Option<int> {
    if |s| >= 2 && s[0] == '-' && (forall k :: 1 <= k < |s| ==> IsDigit(s[k])) then
      Some(-(DigitsValue(s[1..]) as int))
    else if |s| >= 1 && forall k :: 0 <= k < |s| ==> IsDigit(s[k]) then
      Some(DigitsValue(s))
    else None
  }

  lemma {:induction false} NatToStringValue(n: nat)
    ensures DigitsValue(NatToString(n)) == n
    decreases n
  {
    if n >= 10 {
      NatToStringValue(n / 10);
      var s := NatToString(n);
      assert s[..|s| - 1] == NatToString(n / 10);
      DigitRoundTrip(n % 10);
    } else {
      DigitRoundTrip(n);
    }
  }

  /** The digit character of `d` reads back as `d`. */
  lemma DigitRoundTrip(d: nat)
    requires d < 10
    ensures IsDigit(Digit(d)) && DigitValue(Digit(d)) == d
  {
  }

  /** Itoa loses nothing: reading its text back gives the number. */
  lemma ItoaRoundTrip(n: int)
    ensures Atoi(Itoa(n)) == Some(n)
  {
    if n < 0 {
      ReadNegative(-n);
    } else {
      ReadNonNegative(n);
    }
  }

  lemma ReadNegative(m: nat)
    requires m > 0
    ensures Atoi("-" + NatToString(m)) == Some(-(m as int))
  {
    NatToStringValue(m);
    AtoiNegative(NatToString(m));
  }

  lemma ReadNonNegative(m: nat)
    ensures Atoi(NatToString(m)) == Some(m)
  {
    NatToStringValue(m);
    AtoiDigits(NatToString(m));
  }

  lemma AtoiNegative(d: string)
    requires |d| >= 1 && forall k :: 0 <= k < |d| ==> IsDigit(d[k])
    ensures Atoi("-" + d) == Some(-(DigitsValue(d) as int))
  {
    var s := "-" + d;
    assert s[1..] == d;
    assert forall k :: 1 <= k < |s| ==> s[k] == d[k - 1];
  }

  lemma AtoiDigits(d: string)
    requires |d| >= 1 && forall k :: 0 <= k < |d| ==> IsDigit(d[k])
    ensures Atoi(d) == Some(DigitsValue(d))
  {
    assert d[0] != '-';
  }

  /** Decimal text carries no white space and no separator dot. */
  lemma ItoaPlain(n: int)
    ensures '.' !in Itoa(n)
    ensures !IsSpace(Itoa(n)[0]) && !IsSpace(Itoa(n)[|Itoa(n)| - 1])
  {
    var s := Itoa(n);
    forall k | 0 <= k < |s| ensures s[k] != '.' {
      if !(n < 0 && k == 0) {
        assert IsDigit(s[k]);
      }
    }
  }
}

=== FILE: shellversion.dfy ===
/** The version probe: turning the text `gnome-shell --version` prints,
    such as "GNOME Shell 3.34.3\n", into the "major.minor" string "3.34"
    that catalog queries and build lookups are keyed by. Running the
    external command is left out; its output is the input here. */
module ShellVersion {
  import opened Wrappers
  import opened GoStrings

  /** The product name the version text starts with. */
  const Banner := "GNOME Shell"

  /** The source indexes `parts[1]` without a length check, so text with
      no dot makes it panic with an index out of range. */
  datatype ParseError = IndexOutOfRange

  /** Removes the first "GNOME Shell", splits on ".", joins the first two
      pieces with "." and trims white space. It fails exactly when no dot
      is left after the removal; a success holds exactly one dot and has
      no white space at either end. */
  function ParseShellVersion(out: string): (r: Result<string, ParseError>)
    ensures r.Failure? <==> '.' !in ReplaceFirst(out, Banner, "")
    ensures r.Success? ==> CountChar(r.value, '.') == 1
    ensures r.Success? && |r.value| > 0 ==> !IsSpace(r.value[0]) && !IsSpace(r.value[|r.value| - 1])
  {
    var v := ReplaceFirst(out, Banner, "");
    var parts := Split(v, '.');
    CountCharZero(v, '.');
    if |parts| < 2 then Failure(IndexOutOfRange)
    else
      var joined := parts[0] + "." + parts[1];
      CountCharAppend(parts[0] + ".", parts[1], '.');
      CountCharAppend(parts[0], ".", '.');
      CountCharZero(parts[0], '.');
      CountCharZero(parts[1], '.');
      TrimSpaceKeepsDots(joined);
      Success(TrimSpace(joined))
  }

  /** Trimming white space never removes a dot. */
  lemma TrimSpaceKeepsDots(s: string)
    ensures CountChar(TrimSpace(s), '.') == CountChar(s, '.')
  {
    TrimLeftKeepsDots(s);
    TrimRightKeepsDots(TrimLeft(s));
  }

  lemma {:induction false} TrimLeftKeepsDots(s: string)
    ensures CountChar(TrimLeft(s), '.') == CountChar(s, '.')
    decreases |s|
  {
    if |s| > 0 && IsSpace(s[0]) {
      TrimLeftKeepsDots(s[1..]);
    }
  }

  lemma {:induction false} TrimRightKeepsDots(s: string)
    ensures CountChar(TrimRight(s), '.') == CountChar(s, '.')
    decreases |s|
  {
    if |s| > 0 && IsSpace(s[|s| - 1]) {
      var init := s[..|s| - 1];
      TrimRightKeepsDots(init);
      assert s == init + [s[|s| - 1]];
      CountCharAppend(init, [s[|s| - 1]], '.');
    }
  }

  /** Removing the banner from the front of the text leaves what follows it. */
  lemma BannerRemoved(rest: string)
    ensures ReplaceFirst(Banner + rest, Banner, "") == rest
  {
    var out := Banner + rest;
    assert out[..|Banner|] == Banner;
    FirstIndexSome(out, Banner, 0);
    ReplaceAtIndex(out, Banner, "", 0);
    assert out[|Banner|..] == rest;
  }

  /** Joining three pieces puts a separator between each pair. */
  lemma JoinThree(a: string, b: string, c: string, sep: char)
    ensures Join([a, b, c], sep) == a + [sep] + b + [sep] + c
  {
    var parts := [a, b, c];
    assert parts[1..] == [b, c];
    assert [b, c][1..] == [c];
    assert Join([c], sep) == c;
    assert Join([b, c], sep) == b + [sep] + c;
  }

  /** The release format the source is written for: "GNOME Shell M.m.p"
      followed by a newline gives "M.m", for every release number. */
  lemma ParseRelease(major: nat, minor: nat, patch: nat)
    ensures ParseShellVersion(Banner + " " + Itoa(major) + "." + Itoa(minor) + "." + Itoa(patch) + "\n")
            == Success(Itoa(major) + "." + Itoa(minor))
  {
    ItoaPlain(major);
    ItoaPlain(minor);
    ItoaPlain(patch);
    var mj, mn, pt := Itoa(major), Itoa(minor), Itoa(patch);
    ParseDottedText(mj, mn, pt + "\n");
    AppendAssoc(Banner + " " + mj + "." + mn + ".", pt, "\n");
  }

  /** "GNOME Shell " followed by major, dot, minor and a dot-led tail gives
      "major.minor" when the two numbers carry no dot and no white space at
      their ends. */
  lemma ParseDottedText(mj: string, mn: string, tail: string)
    requires |mj| > 0 && '.' !in mj && !IsSpace(mj[0])
    requires |mn| > 0 && '.' !in mn && !IsSpace(mn[|mn| - 1])
    requires '.' !in tail
    ensures ParseShellVersion(Banner + " " + mj + "." + mn + "." + tail) == Success(mj + "." + mn)
  {
    NotInConcat(" ", mj, '.');
    ParseThreePieces(" " + mj, mn, tail);
    Regroup(Banner, mj, mn, tail);
    var t := mj + "." + mn;
    assert t[0] == mj[0] && t[|t| - 1] == mn[|mn| - 1];
    TrimOneSpace(t);
  }

  /** The release text read as banner, three pieces and the pieces' dots. */
  lemma Regroup(b: string, mj: string, mn: string, tail: string)
    ensures b + " " + mj + "." + mn + "." + tail == b + ((" " + mj) + "." + mn + "." + tail)
    ensures (" " + mj) + "." + mn == " " + (mj + "." + mn)
  {
  }

  /** Text of three dot-free pieces after the banner parses to the trimmed first two. */
  lemma ParseThreePieces(p0: string, p1: string, p2: string)
    requires '.' !in p0 && '.' !in p1 && '.' !in p2
    ensures ParseShellVersion(Banner + (p0 + "." + p1 + "." + p2)) == Success(TrimSpace(p0 + "." + p1))
  {
    var rest := p0 + "." + p1 + "." + p2;
    BannerRemoved(rest);
    JoinThree(p0, p1, p2, '.');
    SplitJoin([p0, p1, p2], '.');
    ParseFromParts(Banner + rest, [p0, p1, p2]);
  }

  /** Once the pieces after the banner are known, the result is the trimmed join of the first two. */
  lemma ParseFromParts(out: string, parts: seq<string>)
    requires Split(ReplaceFirst(out, Banner, ""), '.') == parts
    requires |parts| >= 2
    ensures ParseShellVersion(out) == Success(TrimSpace(parts[0] + "." + parts[1]))
  {
  }

  /** Trimming a single space off text without white space at its ends gives the text. */
  lemma TrimOneSpace(t: string)
    requires |t| > 0 && !IsSpace(t[0]) && !IsSpace(t[|t| - 1])
    ensures TrimSpace(" " + t) == t
  {
    assert AllSpace(" ");
    TrimSpaceLeadingSpace(" ", t);
    TrimSpaceNoEdges(t);
  }

  /** The shape the source's comment gives: "GNOME Shell 3.34.3\n" is "3.34". */
  lemma ParseExample()
    ensures ParseShellVersion("GNOME Shell 3.34.3\n") == Success("3.34")
  {
    ExamplePieces();
    ParseDottedText("3", "34", "3\n");
    ExampleText();
  }

  lemma ExamplePieces()
    ensures '.' !in "3" && !IsSpace('3') && '.' !in "34" && !IsSpace('4') && '.' !in "3\n"
  {
  }

  lemma ExampleText()
    ensures Banner + " " + "3" + "." + "34" + "." + "3\n" == "GNOME Shell 3.34.3\n"
    ensures "3" + "." + "34" == "3.34"
  {
  }

  /** A version with a single component has no minor part, and the source
      fails on it. */
  lemma ParseSingleComponentFails(major: nat)
    ensures ParseShellVersion(Banner + " " + Itoa(major) + "\n").Failure?
  {
    var m := Itoa(major);
    ItoaPlain(major);
    AppendAssoc(Banner, " ", m);
    AppendAssoc(Banner, " " + m, "\n");
    BannerRemoved((" " + m) + "\n");
    NoDotAround(m);
  }

  lemma NoDotAround(m: string)
    requires '.' !in m
    ensures '.' !in (" " + m) + "\n"
  {
    NotInConcat(" ", m, '.');
    NotInConcat(" " + m, "\n", '.');
  }
}

=== FILE: wrappers.dfy ===
/** Option and Result: the model's stand-ins for Go's `value, ok` pairs,
    zero values and fatal exits. */
module Wrappers {

  /** An optional value: `None` where the source has "not found" or "still running". */
  datatype Option<+T> = None | Some(value: T)

  /** A value or an error. */
  datatype Result<+R, +E> = Success(value: R) | Failure(error: E)
}
